=== FILE: README.md ===
# LoveLiver core in Dafny

LoveLiver turns a movie clip into an Apple Live Photo (a JPEG plus a
QuickTime movie stamped with the same asset identifier) and can pack live
photos into an Apple Watch photos face bundle. This project models the
sequential logic of that program, with the AVFoundation and AppKit plumbing
around it left out, and proves what that logic promises:

- **QuickTimeMov** (`quicktime_mov.dfy`): the Live Photo metadata codec.
  - `ReadAssetIdentifier` is a first-match scan. A match needs the content-identifier key in the `mdta` key space.
  - `ReadStillImageTime` scans the metadata track's samples. It returns the numeric payload of the first still-image-time item.
  - `Write` lays out the output movie as a pure function of the source movie. The layout has three parts: file-level metadata, the re-encoded video track, and one timed metadata group at the dummy range.
  - Reading a written movie back gives the identifier and the still-image time 0.
- **Watchface** (`watchface.dfy`): the watch-face bundle.
  - Face JSON coding keys and default values.
  - The complication template initialiser.
  - The `Resources` directory, built as a fold of live photos into a name → file map: `Images.plist` plus `<id>.jpg` / `<id>.mov`.
  - The six top-level entries.
  - The JPEG and the movie of each live photo carry the same identifier.
- **LivePhotoSandbox** (`live_photo_sandbox.dfy`): the poster-centred trim window.
  - The window runs from max(0, poster − h) to min(poster + h, duration), where h is 1.5 s rounded to the poster's timescale: exactly 1.5 s at an even timescale, 1.5 s plus half a tick at an odd one.
  - The play button and the play/pause actions.
- **OverviewTouchBar** (`overview_touch_bar.dfy`): the Touch Bar scope window.
  - A touch moves the scope without resizing it and clamps it to the trim end.
  - The veto callback, the drag flag, and range forwarding.
- **MovieOverviewControl** (`movie_overview_control.dfy`): the thumbnail strip.
  - Evenly spaced sample times.
  - Generator replacement on reload.
  - The guard that drops results from outdated generators.
- **AVKitExtension** (`avkit_extension.dfy`): the `msS` decomposition of a time into minutes, seconds and hundredths, and its three zero-padded text forms. Each form is proved to parse back.

Supporting modules:

- **CMTimes** (`cmtime.dfy`): `CMTime` as an integer tick count over a positive timescale, read as an exact rational number of seconds, plus time ranges as (start, duration).
- **Decimal** (`decimal.dfy`): `%d` / `%02d` printing. It also holds a parser for that text (`ParseInt`, `SplitAt`), which the program does not have. The parser is the reference inverse that the round-trip rows below read printed text back with.
- **Wrappers** (`wrappers.dfy`): `Option` and `Result`.

Modelling choices:

- Everything is an immutable datatype with pure functions.
- Asynchronous callbacks become explicit steps: `Complete` for the thumbnail completion handler, and `OnRateChange` for the player-rate observer.
- Closures supplied by clients are function-typed parameters:
  - the `shouldUpdateScopeRange` veto, assumed free of side effects (see `OverviewTouchBar.SeekToTouchPosition` under "## Left out");
  - which appends the sample writer accepts;
  - the NSKeyedArchiver archive.
- The temporary directory that `Resources.fileWrapper` writes to and reads from is a map threaded through the fold. The JPEG writer class is not part of this model, and it is assumed to replace an existing file. The movie writer (`AVAssetWriter`) refuses a destination that already exists. The model writes a movie only under a new name, and assumes that `write` then returns normally, so that the older file is read back.

Where the code and its documentation differ, the model follows the code.

- `readStillImageTime` returns the item's `numberValue` (the payload), not the time at which the sample is placed. `PayloadNotPlacement` states this.
- The third `msS` component is called milliseconds in the code, but it is hundredths of a second.
- `seekToTouchPosition` writes the overview's scope range, not the provider's own `scopeRange` property. `ScopeMirrorAndTouches` states this.
- Under those assumptions, a repeated identifier gives a bundle whose `<id>.jpg` comes from the last live photo with that identifier and whose `<id>.mov` comes from the first. `LastLivePhotoWins` and `FirstMovieStays` state the two halves.
- The repository's `MovieOverviewControl.swift` is older than its callers. `OverviewTouchBarItemProvider.swift` (lines 46-48) and `MovieOverviewViewController.swift` (lines 18 and 37) use an `init(player:playerItem:)`, `currentTime`, `draggingMode` and `imageGeneratorTolerance` that it lacks, and the Touch Bar provider also reads and writes `trimRange` and `scopeRange`. The overview is therefore modelled as a holder of `trimRange`, `scopeRange` and `currentTime` next to the state `reload` manages; the drag mode and the generator tolerance are not modelled.

## Model

| member | source | states |
|---|---|---|
| CMTimes.LessIsSecondsOrder | LoveLiver-osx/OverviewTouchBarItemProvider.swift:105 | comparing ticks by cross-multiplying the timescales orders times exactly as their values in seconds |
| CMTimes.SameTimescaleOrder | LoveLiver-osx/MovieOverviewControl.swift:60 | at one timescale, the order of times is the order of their tick counts, strict and non-strict |
| CMTimes.Trunc | LoveLiver-osx/OverviewTouchBarItemProvider.swift:103 | the integer conversion of a real truncates: it is the floor for non-negative values and lies within one of the value on the zero side: below a non-negative value, above a negative one |
| CMTimes.Add | LoveLiver-osx/OverviewTouchBarItemProvider.swift:103 | the sum's value in seconds is the sum of the values; equal timescales are kept |
| CMTimes.Sub | LoveLiver-osx/OverviewTouchBarItemProvider.swift:104 | the difference's value in seconds is the difference of the values; equal timescales are kept |
| CMTimes.Minimum | LoveLiver-osx/OverviewTouchBarItemProvider.swift:105 | the result is one of the two arguments and is no later than either |
| CMTimes.Maximum | LoveLiver-osx/LivePhotoSandboxViewController.swift:67 | the result is one of the two arguments and is no earlier than either |
| CMTimes.End | LoveLiver-osx/OverviewTouchBarItemProvider.swift:104 | a range's end is its start plus its duration, in seconds |
| CMTimes.RangeFromTo | LoveLiver-osx/OverviewTouchBarItemProvider.swift:108 | a range built from start and end keeps the start, ends at the given end and lasts end − start |
| Decimal.DigitChar | LoveLiver-osx/AVKitExtension.swift:23 | the character printed for a digit is a decimal digit denoting that digit |
| Decimal.NatToString | LoveLiver-osx/AVKitExtension.swift:23 | `%d` of a natural number is a non-empty digit string, one digit exactly when the number is below ten, with a leading zero only for zero itself |
| Decimal.IntToString | LoveLiver-osx/AVKitExtension.swift:23 | `%d` is digits with a leading minus sign exactly for negative numbers |
| Decimal.Pad2 | LoveLiver-osx/AVKitExtension.swift:28 | `%02d` is at least two characters, and exactly two digits precisely for numbers in 0..99 |
| Decimal.ParseNatToString | LoveLiver-osx/AVKitExtension.swift:23 | parsing the `%d` text of a natural number gives the number back |
| Decimal.ParseNatLeadingZero | LoveLiver-osx/AVKitExtension.swift:28 | a zero put in front by `%02d` padding does not change the number read |
| Decimal.IntToStringRoundTrip | LoveLiver-osx/AVKitExtension.swift:23 | parsing `%d` text gives back any integer, negative ones included |
| Decimal.Pad2RoundTrip | LoveLiver-osx/AVKitExtension.swift:28 | parsing `%02d` text gives back any integer |
| Decimal.NumberTextHasNo | LoveLiver-osx/AVKitExtension.swift:28 | neither `%d` nor `%02d` text contains a separator that is not a digit or minus sign |
| AVKitExtension.MsS | LoveLiver-osx/AVKitExtension.swift:13-18 | the seconds part lies in [0, 60) and minutes · 60 + seconds is the floor of the time in seconds; the third part (hundredths) lies in [0, 100); minutes are non-negative for non-negative times |
| AVKitExtension.MsSIntegerForm | LoveLiver-osx/AVKitExtension.swift:13-18 | with exact arithmetic the decomposition equals the integer one: q = value div timescale gives minutes q div 60, seconds q mod 60 and hundredths (value mod timescale) · 100 div timescale |
| AVKitExtension.StringInsSSRoundTrip | LoveLiver-osx/AVKitExtension.swift:21-24 | the `sS` text reads back as the whole seconds (the floor of the time) and the hundredths |
| AVKitExtension.SecondsFieldsRoundTrip | LoveLiver-osx/AVKitExtension.swift:23 | `%d.%02d` text of any two integers reads back as those two integers |
| AVKitExtension.ThreeFieldsRoundTrip | LoveLiver-osx/AVKitExtension.swift:26-34 | three `%02d` fields joined by two non-digit separators read back as the three numbers |
| AVKitExtension.StringInmmssSSRoundTrip | LoveLiver-osx/AVKitExtension.swift:26-29 | the `mm:ss.SS` text reads back as exactly the minutes, seconds and hundredths of `msS` |
| AVKitExtension.StringInmmmsssSSRoundTrip | LoveLiver-osx/AVKitExtension.swift:31-34 | the `mmmsssSS` text reads back as exactly the minutes, seconds and hundredths of `msS` |
| AVKitExtension.TwoDigitFields | LoveLiver-osx/AVKitExtension.swift:26-34 | below 100 minutes both texts are eight characters: two-digit fields with the separators at positions 2 and 5 |
| QuickTimeMov.FirstIndex | LoveLiver/QuickTimeMov.swift:30-36 | the first index satisfying a test, or none when no element does |
| QuickTimeMov.ReadAssetIdentifier | LoveLiver/QuickTimeMov.swift:29-37 | the first item with the content-identifier key in the `mdta` key space decides: the result is that item's string value. With no such item the result is none. A result is always the text of some matching item |
| QuickTimeMov.ScanSamples | LoveLiver/QuickTimeMov.swift:44-55 | the first non-empty sample holding a still-image-time item in `mdta` decides, giving that item's number value; none when no sample does |
| QuickTimeMov.ReadStillImageTime | LoveLiver/QuickTimeMov.swift:39-58 | none without a metadata track; otherwise the scan of the first metadata track's samples |
| QuickTimeMov.MetadataFor | LoveLiver/QuickTimeMov.swift:171-178 | the item has the content-identifier key in `mdta`, the identifier as its string value, and the UTF-8 data type |
| QuickTimeMov.MetadataForStillImageTime | LoveLiver/QuickTimeMov.swift:180-187 | the item has the still-image-time key in `mdta`, the number 0 as value, and the int8 data type |
| QuickTimeMov.StillImageTimeTrack | LoveLiver/QuickTimeMov.swift:149-160 | the metadata track is specified as `mdta/com.apple.quicktime.still-image-time` with the int8 data type |
| QuickTimeMov.AppendFrom | LoveLiver/QuickTimeMov.swift:102-110 | the frames appended from position k are a contiguous run of the source frames in reader order; all of them were accepted, and the run stops at the first refused append |
| QuickTimeMov.AppendedFrames | LoveLiver/QuickTimeMov.swift:102-121 | the written frames are a prefix of the source frames; every one was accepted, and the first refusal cancels reading |
| QuickTimeMov.Write | LoveLiver/QuickTimeMov.swift:60-76 | nothing is written exactly when the source has no video track (the source's first video track is used); the output is a QuickTime movie |
| QuickTimeMov.DummyTimeRangeShape | LoveLiver/QuickTimeMov.swift:18 | the dummy range starts at 0, is non-empty, and ends at 1/15 s |
| QuickTimeMov.WriteFileMetadata | LoveLiver/QuickTimeMov.swift:77 | the written file-level metadata is exactly one item, the content identifier item for the given identifier |
| QuickTimeMov.WriteReadAssetIdentifier | LoveLiver/QuickTimeMov.swift:29-37 | reading the identifier back from a written movie gives the identifier written |
| QuickTimeMov.WriteMetadataTrack | LoveLiver/QuickTimeMov.swift:86-99 | the written movie has one metadata track holding one sample whose group is the still-image-time item at the dummy range |
| QuickTimeMov.WriteReadStillImageTime | LoveLiver/QuickTimeMov.swift:39-58 | reading the still-image time back from a written movie gives 0 |
| QuickTimeMov.WriteVideoTrack | LoveLiver/QuickTimeMov.swift:80-84 | the written video track keeps the source track's natural size and preferred transform, is encoded as H.264, and holds the accepted frames; when all appends succeed it holds all frames |
| QuickTimeMov.FirstIdentifierItemDecides | LoveLiver/QuickTimeMov.swift:30-33 | a first matching item without a string value gives none, whatever matching items follow |
| QuickTimeMov.OtherKeySpaceIgnored | LoveLiver/QuickTimeMov.swift:31-32 | an item outside the `mdta` key space never matches, even with the right key |
| QuickTimeMov.EmptySamplesSkipped | LoveLiver/QuickTimeMov.swift:46 | a sample buffer with no samples is skipped |
| QuickTimeMov.PayloadNotPlacement | LoveLiver/QuickTimeMov.swift:47-52 | moving samples to other time ranges does not change the result: the payload is returned, not the time |
| Watchface.CodingKeysDistinct | LoveLiver-osx/Watchface.swift:154-160 | the five face coding keys are pairwise distinct |
| Watchface.CodingKeysRenaming | LoveLiver-osx/Watchface.swift:154-160 | face_type is written as "face type" and resource_directory as "resource directory"; the other three keep their names |
| Watchface.EncodeFace | LoveLiver-osx/Watchface.swift:134-161 | the face encodes as a JSON object over the coding keys, with "complications" present exactly when the face has complications |
| Watchface.FaceJsonRoundTrip | LoveLiver-osx/Watchface.swift:134-161 | decoding an encoded face gives the face back |
| Watchface.DefaultFaceJson | LoveLiver-osx/Watchface.swift:135-146 | a default face encodes version 4, face type "photos", resource directory true and no complications |
| Watchface.DefaultPartsJson | LoveLiver-osx/Watchface.swift:137-152 | the default customization encodes as color "none", content "custom", position "top", and the default complications as a top item with app "date" |
| Watchface.MakeComplicationSampleTemplate | LoveLiver-osx/Watchface.swift:14-18 | each field is present exactly when its template is given, and then holds that template's archive; (nil, nil) gives two nil fields |
| Watchface.SampleTemplateInjective | LoveLiver-osx/Watchface.swift:14-18 | when the archive tells templates apart, two sample templates are equal exactly when their (top, bottom) arguments are |
| Watchface.DefaultWatchMetadataValues | LoveLiver-osx/Watchface.swift:5-9 | the memberwise initialiser with `ComplicationsNames()` and `ComplicationsItemIDs()` passed gives version 1, device size 2 and the names' own defaults "Off" / "Off" (lines 122-128), with the templates as given |
| Watchface.DefaultImageItemValues | LoveLiver-osx/Watchface.swift:197-211 | an image item defaults to a live photo of 3 s with its still at 0 s and a 384 × 480 crop at the origin, keeping the given URLs, identifier and date; an image list defaults to version 1 (line 174) |
| Watchface.NamesDistinct | LoveLiver-osx/Watchface.swift:220-226 | a `.jpg` name never equals a `.mov` name or "Images.plist", and each name determines its identifier |
| Watchface.WriteTmp | LoveLiver-osx/Watchface.swift:221-224 | the JPEG write replaces `<id>.jpg`; the movie write creates `<id>.mov` only when no such file exists and the source has a video track, and otherwise leaves the old file or none; nothing else changes |
| Watchface.AddLivePhoto | LoveLiver-osx/Watchface.swift:221-226 | one fold step adds exactly `<id>.jpg` and `<id>.mov`, and succeeds exactly when the source has a video track or `<id>.mov` already exists. The JPEG entry is the identifier-stamped JPEG. The movie entry is the movie written when the file was new, and otherwise the file already there. Other entries and temporary files are unchanged |
| Watchface.EntryNames | LoveLiver-osx/Watchface.swift:220 | the resource names always include "Images.plist" |
| Watchface.BuildResources | LoveLiver-osx/Watchface.swift:219-228 | on success the entry names are exactly "Images.plist" plus `<id>.jpg` and `<id>.mov` per live photo, with the encoded image list under "Images.plist"; when every movie has a video track the build succeeds |
| Watchface.ResourcesFileWrapper | LoveLiver-osx/Watchface.swift:219-228 | the resources wrapper is a directory containing "Images.plist" and fails exactly when the fold fails |
| Watchface.WatchfaceFileWrapper | LoveLiver-osx/Watchface.swift:231-239 | the bundle has exactly six entries, with the encoded face under face.json and the resources directory under Resources, and fails exactly when the resources fail |
| Watchface.EntryNamesMembership | LoveLiver-osx/Watchface.swift:225-226 | `<id>.jpg` and `<id>.mov` are resource names exactly when some live photo has identifier id |
| Watchface.EntryNamesCount | LoveLiver-osx/Watchface.swift:220-227 | there are 1 + 2 × (number of distinct identifiers) resource names |
| Watchface.IdsMembership | LoveLiver-osx/Watchface.swift:170 | an identifier is among the live photos' identifiers exactly when some live photo carries it |
| Watchface.ResourcesEntryCount | LoveLiver-osx/Watchface.swift:220-227 | a successful resources directory has 1 + 2 × (number of distinct identifiers) entries |
| Watchface.ResourcesEntryNames | LoveLiver-osx/Watchface.swift:220-227 | when building succeeds, every live photo has its two entries, and every entry other than "Images.plist" belongs to some live photo |
| Watchface.EntryNamesOrigin | LoveLiver-osx/Watchface.swift:225-226 | every resource name other than "Images.plist" is the `.jpg` or `.mov` name of some live photo |
| Watchface.LastLivePhotoWins | LoveLiver-osx/Watchface.swift:220-227 | when building succeeds, the JPEG under an identifier is that of the last live photo with that identifier, so later duplicates replace earlier JPEGs |
| Watchface.FirstMovieStays | LoveLiver-osx/Watchface.swift:220-227 | when building succeeds and the temporary directory held no such movie, the movie under an identifier is the one its first live photo wrote, which had a video track; later duplicates cannot replace it |
| Watchface.FirstMovieWritten | LoveLiver-osx/Watchface.swift:222-226 | the live photo that first uses an identifier writes its movie into the bundle and the temporary directory |
| Watchface.UnusedMovName | LoveLiver-osx/Watchface.swift:222-224 | the fold writes no `<id>.mov` for an identifier no live photo carries |
| Watchface.AddLivePhotoHolds | LoveLiver-osx/Watchface.swift:221-226 | after a fold step the entries hold the added live photo's stamped JPEG and, when no `<id>.mov` existed before, its written movie, whose source had a video track |
| Watchface.AddLivePhotoKeepsJpeg | LoveLiver-osx/Watchface.swift:225-226 | a fold step keeps the JPEG of every live photo with another identifier |
| Watchface.AddLivePhotoKeepsMovie | LoveLiver-osx/Watchface.swift:222-226 | a fold step keeps every movie already written, even one under its own identifier |
| Watchface.ResourcesStamped | LoveLiver-osx/Watchface.swift:221-226 | when building succeeds, every resource entry other than "Images.plist" is stamped with the identifier its name carries |
| Watchface.AddLivePhotoKeepsStamped | LoveLiver-osx/Watchface.swift:221-226 | one fold step keeps every entry and temporary file stamped with the identifier of its name |
| Watchface.WriteTmpKeepsStamped | LoveLiver-osx/Watchface.swift:221-224 | the writes of one fold step keep every temporary file stamped with the identifier of its name |
| Watchface.PairedIdentifiers | LoveLiver-osx/Watchface.swift:221-226 | for each live photo, `<id>.jpg` and `<id>.mov` are stamped with the same identifier, the base name of both |
| Watchface.FailurePersists | LoveLiver-osx/Watchface.swift:220-227 | once a step of the fold throws, the whole build throws |
| Watchface.MissingVideoTrackFails | LoveLiver-osx/Watchface.swift:224-226 | from an empty temporary directory, a live photo whose movie has no video track and whose identifier is new makes the build throw |
| Watchface.BundleResources | LoveLiver-osx/Watchface.swift:231-238 | in a successful bundle the Resources entry is a directory of exactly "Images.plist" and one `.jpg` / `.mov` pair per distinct identifier (1 + 2n entries), holds the encoded image list, and, from a stamped temporary directory, pairs every live photo's JPEG and MOV under its identifier |
| LivePhotoSandbox.TimeFromSeconds | LoveLiver-osx/LivePhotoSandboxViewController.swift:66 | a time made from seconds at a timescale lies within half a tick of the exact value, a tie going away from zero: on the lower side for a non-negative value and on the upper side for a negative one |
| LivePhotoSandbox.HalfWindow | LoveLiver-osx/LivePhotoSandboxViewController.swift:65-66 | half the live-photo length is 1.5 s at the poster's timescale, so that twice the ticks is 3 · timescale, plus one for an odd timescale |
| LivePhotoSandbox.HalfLivePhotoTicks | LoveLiver-osx/LivePhotoSandboxViewController.swift:65-66 | rounding 1.5 s to the poster's timescale gives (3 · timescale + timescale mod 2) / 2 ticks |
| LivePhotoSandbox.HalfWindowSeconds | LoveLiver-osx/LivePhotoSandboxViewController.swift:65-66 | twice the half window is 3 s, plus one tick at an odd timescale |
| LivePhotoSandbox.TrimWindow | LoveLiver-osx/LivePhotoSandboxViewController.swift:63-68 | the window starts at max(0, poster − offset) and ends at min(poster + offset, duration), in seconds |
| LivePhotoSandbox.UpdatePlayButton | LoveLiver-osx/LivePhotoSandboxViewController.swift:30-38 | the button shows "■" with the pause action exactly when the rate is non-zero, else "▶" with play, and a stopped player is moved to the poster time |
| LivePhotoSandbox.Play | LoveLiver-osx/LivePhotoSandboxViewController.swift:134-137 | play seeks to the start time and sets a non-zero rate; the window, the poster, the button, the volume, the forward end time and pause-at-end are kept |
| LivePhotoSandbox.Pause | LoveLiver-osx/LivePhotoSandboxViewController.swift:139-141 | pause sets the rate to zero; the position, the window, the poster, the button, the volume, the forward end time and pause-at-end are kept |
| LivePhotoSandbox.Init | LoveLiver-osx/LivePhotoSandboxViewController.swift:59-83 | there is no sandbox exactly when the player has no item. The poster is the current time and the window is the trim window of the item's duration. Playback stops at the window end, the volume is copied and the item pauses at its end |
| LivePhotoSandbox.WindowInsideMovie | LoveLiver-osx/LivePhotoSandboxViewController.swift:67-68 | the start is at least 0 and the end at most the duration |
| LivePhotoSandbox.WindowWidth | LoveLiver-osx/LivePhotoSandboxViewController.swift:65-68 | the window is at most twice the offset long |
| LivePhotoSandbox.WindowAtMostLivePhoto | LoveLiver-osx/LivePhotoSandboxViewController.swift:65-68 | the window is at most 3 s long, plus one tick at an odd poster timescale |
| LivePhotoSandbox.WindowAtMostLivePhotoEven | LoveLiver-osx/LivePhotoSandboxViewController.swift:65-68 | at an even timescale the window is at most 3 s long |
| LivePhotoSandbox.PosterInsideWindow | LoveLiver-osx/LivePhotoSandboxViewController.swift:63-68 | a poster inside the movie lies inside the window |
| LivePhotoSandbox.InitStartsPlaying | LoveLiver-osx/LivePhotoSandboxViewController.swift:80-82 | after init the player plays from the window start and the button shows "■" with pause |
| LivePhotoSandbox.PauseShowsPoster | LoveLiver-osx/LivePhotoSandboxViewController.swift:139-151 | pausing, observed through the rate change, shows "▶" with play and moves the player to the poster time |
| MovieOverviewControl.TruncDiv | LoveLiver-osx/MovieOverviewControl.swift:60 | Int64 division truncates toward zero: the remainder is below the divisor in size and has the sign of the dividend |
| MovieOverviewControl.SampleTimes | LoveLiver-osx/MovieOverviewControl.swift:59-61 | there is one sample time per page, each at the duration's timescale |
| MovieOverviewControl.Reload | LoveLiver-osx/MovieOverviewControl.swift:44-80 | the old generator is cancelled and the thumbnails emptied. Without an item or a video track there are no pages, no generator and no new request. Otherwise a fresh generator becomes current and is asked for the sample times of all pages |
| MovieOverviewControl.Complete | LoveLiver-osx/MovieOverviewControl.swift:66-78 | a thumbnail is appended exactly when generation succeeded and its generator is still current; otherwise nothing changes |
| MovieOverviewControl.SampleTimesEvenlySpaced | LoveLiver-osx/MovieOverviewControl.swift:59-61 | for a non-negative duration, sample i is the largest tick count not past i / pages of the duration |
| MovieOverviewControl.SampleTimesMonotone | LoveLiver-osx/MovieOverviewControl.swift:59-61 | for a non-negative duration, a later page is sampled no earlier than an earlier one, and never before zero |
| MovieOverviewControl.SampleTimesBeforeEnd | LoveLiver-osx/MovieOverviewControl.swift:59-61 | for a positive duration every sample lies strictly before the end of the movie |
| MovieOverviewControl.SampleTimesOrdered | LoveLiver-osx/MovieOverviewControl.swift:59-61 | sample times start at 0, never decrease, and stay strictly before a positive duration |
| MovieOverviewControl.StepConsistent | LoveLiver-osx/MovieOverviewControl.swift:44-78 | reloads and completions keep every shown thumbnail from the current generator, and never reuse a generator identity |
| MovieOverviewControl.OutdatedResultsDropped | LoveLiver-osx/MovieOverviewControl.swift:75 | a replaced generator never becomes current again, and none of its results is ever shown, whatever events follow |
| MovieOverviewControl.RunConsistent | LoveLiver-osx/MovieOverviewControl.swift:44-79 | any run of reloads and completions keeps every shown thumbnail from the current generator |
| MovieOverviewControl.RunKeepsClientFields | LoveLiver-osx/MovieOverviewControl.swift:44-79 | reloads and completions never change the trim range, the scope range or the current time |
| MovieOverviewControl.FreshOverviewRuns | LoveLiver-osx/MovieOverviewControl.swift:26-30 | from a freshly created overview, whatever reloads and completions follow, every shown thumbnail is from the current generator and the client's fields are the ones it was created with |
| OverviewTouchBar.InitialProvider | LoveLiver-osx/OverviewTouchBarItemProvider.swift:30-46 | a new provider has zero trim and scope ranges, no drag and no notifications |
| OverviewTouchBar.SetTrimRange | LoveLiver-osx/OverviewTouchBarItemProvider.swift:30-34 | setting the trim range forwards the same range to the overview and changes nothing else |
| OverviewTouchBar.SetScopeRange | LoveLiver-osx/OverviewTouchBarItemProvider.swift:35-39 | setting the scope range forwards the same range to the overview and changes nothing else |
| OverviewTouchBar.TouchTime | LoveLiver-osx/OverviewTouchBarItemProvider.swift:103 | for a touch on the view and a non-negative trim duration, the touched time lies within the trim range |
| OverviewTouchBar.NewScopeRange | LoveLiver-osx/OverviewTouchBarItemProvider.swift:98-108 | the new scope keeps the scope's length (zero without a scope) and never ends after the trim end. It starts at the touched time when that fits; otherwise it ends exactly at the trim end |
| OverviewTouchBar.SeekToTouchPosition | LoveLiver-osx/OverviewTouchBarItemProvider.swift:97-114 | the overview's scope becomes the new range only when the veto callback exists and approves it, and the listener hears of it exactly then. Otherwise nothing changes. The provider's own ranges and drag flag are never changed |
| OverviewTouchBar.TouchesBegan | LoveLiver-osx/OverviewTouchBarItemProvider.swift:76-82 | a direct touch starts a drag and seeks; any other event changes nothing |
| OverviewTouchBar.TouchesMoved | LoveLiver-osx/OverviewTouchBarItemProvider.swift:84-88 | a touch seeks and leaves the drag flag as it was |
| OverviewTouchBar.TouchesEnded | LoveLiver-osx/OverviewTouchBarItemProvider.swift:90-95 | a touch ends the drag and seeks once more |
| OverviewTouchBar.OffsetWithinDuration | LoveLiver-osx/OverviewTouchBarItemProvider.swift:103 | the truncated fraction of a non-negative duration lies between zero and the duration |
| OverviewTouchBar.TruncatedFraction | LoveLiver-osx/OverviewTouchBarItemProvider.swift:103 | truncating a fraction in [0, 1] of n ticks gives between 0 and n ticks |
| OverviewTouchBar.HandleKeepsShape | LoveLiver-osx/OverviewTouchBarItemProvider.swift:76-114 | no touch changes the trim ranges, the provider's scope range or the scope's length |
| OverviewTouchBar.DraggingKeepsScopeLength | LoveLiver-osx/OverviewTouchBarItemProvider.swift:99-111 | after any touches the scope is as long as before: dragging moves the scope and never resizes it |
| OverviewTouchBar.SeekKeepsScopeInside | LoveLiver-osx/OverviewTouchBarItemProvider.swift:103-111 | a touch on the view keeps a scope that fits the trim range inside the trim range |
| OverviewTouchBar.TouchesKeepScopeInside | LoveLiver-osx/OverviewTouchBarItemProvider.swift:76-114 | while touches land on the view, a scope that fits the trim range stays inside it, whatever side-effect-free callbacks decide |
| OverviewTouchBar.DraggingState | LoveLiver-osx/OverviewTouchBarItemProvider.swift:76-95 | a drag is on after a direct touch-began and off after a touch-ended with a touch; touch-moved leaves it |
| OverviewTouchBar.TrimStaysMirrored | LoveLiver-osx/OverviewTouchBarItemProvider.swift:30-34 | once the overview shows the provider's trim range, it keeps showing it through any setter calls and touches, and the trim range is the one last set |
| OverviewTouchBar.ScopeMirrorAndTouches | LoveLiver-osx/OverviewTouchBarItemProvider.swift:110-112 | the scope setter makes the overview show the provider's scope and the trim setter keeps that; a touch the client approves that moves the scope elsewhere makes the two differ, and a touch it rejects changes nothing |

## Left out

- The AVAssetReader / AVAssetWriter pump, its dispatch queue and the run-loop polling in `write` are not modelled. `Write` gives the finished output directly, and the writer's acceptance of each appended buffer is a parameter.
- Errors that are only printed, and the `try!` in `readStillImageTime`, are not modelled. `Write` assumes that the asset reader and the asset writer are created (`QuickTimeMov.swift` lines 69 and 76); when either throws, the source writes nothing, while `Write` still returns a movie for every source with a video track. The one writer failure the model does follow is the refusal of an existing destination file, in `Watchface.WriteTmp`.
- The JPEG writer class is not modelled. It is an opaque writer that records the image and the identifier it stamps.
- The bytes produced by NSKeyedArchiver, JSONEncoder and PropertyListEncoder are not modelled. Face JSON is modelled as a tree with its coding keys. The metadata, the image list and the template archive are kept as values.
- The NSCoding template classes and their key lists are not modelled. A template is opaque and its archive is a parameter.
- The `Double`-valued analysis and original-crop fields of an image item are not modelled. They carry no logic. The other fields are kept with these changes:
  - `irisDuration` and `irisStillDisplayTime` (`Double`) are exact reals;
  - `modificationDate` (a `Date` defaulting to now) is a number of seconds, and the current time is a parameter of `DefaultImageItem`;
  - `complications_item_ids` is kept as the field-less `ComplicationsItemIds`.
- The template classes' own stored defaults (creation date, text provider, tint colour) are not modelled; a template keeps only `finalized`, `sensitivity` and `linkedOnOrAfterGrace`.
- Floating point is idealised:
  - `CMTimeGetSeconds` and time comparison are exact rationals;
  - `CMTime(seconds:preferredTimescale:)` is exact rounding half away from zero;
  - `CMTimeAdd` / `CMTimeSubtract` at different timescales use the product timescale rather than CoreMedia's common timescale with rounding;
  - the touch location is given as a fraction of the view width. `OverviewTouchBarItemProvider.swift` line 101 converts the location twice (`convert(touch.location(in: view), from: nil)`), and the fraction parameter hides that conversion;
  - the page count, a float `ceil` of width over page width, is a parameter.
- AVKitExtension.MsS: the `Double` subtraction and multiplication at `AVKitExtension.swift` lines 15-17 are exact in the model. In the source, `(duration - floor(duration)) * 100` can fall just below a whole number before `Int(...)` truncates it. For 0.29 s it is 28.999999999999996, so the source can show one hundredth less than the model ("00:00.28" where the model gives 29).
- Decimal.IntToString: `String(format:)` passes a 64-bit Swift `Int` to `%d` (and to `%02d` in `Decimal.Pad2`), which reads a 32-bit C `int` (`AVKitExtension.swift` lines 23, 28 and 33). Values outside the 32-bit range print their 32-bit wrap-around, so 3 000 000 000 seconds prints "-1294967296". The model prints the exact integer, so its round trips hold only for fields within the 32-bit range in the source.
- Decimal.Pad2: `%02d` reads a 32-bit C `int` in the same way, and the model does not wrap its argument either.
- Watchface.WriteTmp: when `<id>.mov` already exists, `writer.startWriting()` fails at `QuickTimeMov.swift` line 93, and its result is ignored. The source then calls `startSession(atSourceTime:)` (line 95) and `append` (line 98) on the failed writer. AVFoundation may raise an Objective-C exception there, which the surrounding `do`/`catch` cannot catch. The model assumes that `write` returns normally and leaves the old file in place. The JPEG writer's replacement of an existing file is likewise an assumption about a class this model does not include.
- OverviewTouchBar.SeekToTouchPosition: both client callbacks are assumed to have no side effects. The veto `shouldUpdateScopeRange` (`OverviewTouchBarItemProvider.swift` line 110) is a pure function of the new range. `onScopeChange` (line 112) receives the `MovieOverviewControl` itself and is modelled only by a notification entry, so a client that sets the overview's `scopeRange` or `trimRange`, or writes back into the provider, from either callback is outside the model. `DraggingKeepsScopeLength`, `TouchesKeepScopeInside` and `ScopeMirrorAndTouches` hold under this assumption.
- CMTimes.Add: Int64 overflow of tick counts, and CoreMedia's invalid, indefinite and infinite times, are not modelled.
- MovieOverviewControl.SampleTimes: Swift's `Int64` multiplication `duration.value * Int64(i)` traps on overflow; the overflow trap is not modelled, and the product is exact.
- Thumbnail images, drawing and layout are not modelled. A thumbnail records its generator and requested time. The main-queue hop of the completion handler is an event applied in order.
- The rate observer is not modelled as a callback. `OnRateChange` is applied explicitly after `Play` and `Pause`.
- `LoveLiver/main.swift` (the command line, which declares the short flag `o` twice), the window, document and annotation views, and `AppDelegate` are not part of this model. They are user-interface plumbing.
- `copyImage(at:)`, `naturalSize` and `minFrameDuration` of `AVKitExtension.swift` are not modelled. They forward to AVFoundation.
- The path handling of `appendingPathComponent` / `appendingPathExtension` is not modelled. A temporary file is named `<id>.jpg` / `<id>.mov` in a map.

=== FILE: avkit_extension.dfy ===
/** The `CMTime` text conversions of the AVKit extension: the
    minutes / seconds / hundredths decomposition `msS` and the three
    zero-padded formats built on it. */
module AVKitExtension {
  import opened Wrappers
  import opened CMTimes
  import opened Decimal

  /** `msS`: whole minutes, the seconds left over, and the hundredths of a
      second (the source calls them milliseconds, but multiplies by 100). */
  function MsS(t: CMTime): (r: (int, int, int))
    ensures 0 <= r.1 < 60
    ensures r.0 * 60 + r.1 == Seconds(t).Floor
    ensures 0 <= r.2 < 100
    ensures Seconds(t) >= 0.0 ==> r.0 >= 0
  {
    var duration := Seconds(t);
    var minutes := (duration / 60.0).Floor;
    var seconds := (duration - minutes as real * 60.0).Floor;
    var hundredths := Trunc((duration - duration.Floor as real) * 100.0);
    assert seconds == duration.Floor - minutes * 60;
    assert minutes * 60 <= duration.Floor;
    HundredthsBounds(duration);
    (minutes, seconds, hundredths)
  }

  lemma HundredthsBounds(d: real)
    ensures 0 <= Trunc((d - d.Floor as real) * 100.0) < 100
  {
  }

  /** `%d.%02d` of total seconds and hundredths. */
  function StringInsSS(t: CMTime): string {
    var (minutes, seconds, hundredths) := MsS(t);
    IntToString(minutes * 60 + seconds) + "." + Pad2(hundredths)
  }

  /** `%02d:%02d.%02d` of minutes, seconds and hundredths. */
  function StringInmmssSS(t: CMTime): string {
    var (minutes, seconds, hundredths) := MsS(t);
    Pad2(minutes) + ":" + Pad2(seconds) + "." + Pad2(hundredths)
  }

  /** `%02dm%02ds%02d` of minutes, seconds and hundredths. */
  function StringInmmmsssSS(t: CMTime): string {
    var (minutes, seconds, hundredths) := MsS(t);
    Pad2(minutes) + "m" + Pad2(seconds) + "s" + Pad2(hundredths)
  }

  /** `CMTimeGetSeconds` rounded down is integer division of value by timescale. */
  lemma FloorOfQuotient(v: int, ts: Timescale)
    ensures (v as real / ts as real).Floor == v / ts
  {
    var d := v as real / ts as real;
    var q, p := v / ts, ts as real;
    assert d * p == v as real;
    assert q as real * p <= v as real < (q + 1) as real * p by {
      assert q * ts <= v < (q + 1) * ts;
    }
    assert q as real <= d < (q + 1) as real;
  }

  /** An integer-only definition of `msS`: with exact arithmetic, the
      hundredths are the remainder ticks times 100 over the timescale. */
  lemma MsSIntegerForm(t: CMTime)
    ensures var q := t.value / t.timescale;
            MsS(t) == (q / 60, q % 60, (t.value % t.timescale) * 100 / t.timescale)
  {
    var v, ts := t.value, t.timescale;
    var q, rem := v / ts, v % ts;
    var d := Seconds(t);
    FloorOfQuotient(v, ts);
    assert d.Floor == q;
    var r := MsS(t);
    assert r.0 == q / 60 && r.1 == q % 60;
    var p := ts as real;
    assert d - q as real == rem as real / p by {
      SecondsScale(t);
      assert v == q * ts + rem;
      assert (d - q as real) * p == rem as real;
    }
    assert (d - q as real) * 100.0 == (rem * 100) as real / p;
    FloorOfQuotient(rem * 100, ts);
  }

  /** Reads the text of `stringInsSS` back as (total seconds, hundredths). */
  function ParseInsSS(s: string): Option<(int, int)> {
    match SplitAt(s, '.')
    case None => None
    case Some((a, b)) =>
      match (ParseInt(a), ParseInt(b))
      case (Some(x), Some(y)) => Some((x, y))
      case _ => None
  }

  /** Reads a `%02d<sep1>%02d<sep2>%02d` text back as its three numbers. */
  function ParseThreeFields(s: string, sep1: char, sep2: char): Option<(int, int, int)> {
    match SplitAt(s, sep1)
    case None => None
    case Some((a, rest)) =>
      match SplitAt(rest, sep2)
      case None => None
      case Some((b, c)) =>
        match (ParseInt(a), ParseInt(b), ParseInt(c))
        case (Some(x), Some(y), Some(z)) => Some((x, y, z))
        case _ => None
  }

  /** `stringInsSS` shows the whole seconds, then the hundredths, for any time. */
  lemma StringInsSSRoundTrip(t: CMTime)
    ensures ParseInsSS(StringInsSS(t)) == Some((Seconds(t).Floor, MsS(t).2))
  {
    var (m, sec, h) := MsS(t);
    assert StringInsSS(t) == IntToString(m * 60 + sec) + ['.'] + Pad2(h);
    SecondsFieldsRoundTrip(m * 60 + sec, h);
  }

  /** `%d.%02d` text of any two integers reads back as those integers. */
  lemma SecondsFieldsRoundTrip(n: int, h: int)
    ensures ParseInsSS(IntToString(n) + ['.'] + Pad2(h)) == Some((n, h))
  {
    var a, b := IntToString(n), Pad2(h);
    NumberTextHasNo(n, '.');
    SplitAtJoin(a, '.', b);
    IntToStringRoundTrip(n);
    Pad2RoundTrip(h);
  }

  lemma ThreeFieldsRoundTrip(x: int, y: int, z: int, sep1: char, sep2: char)
    requires !IsDigit(sep1) && sep1 != '-' && !IsDigit(sep2) && sep2 != '-'
    ensures ParseThreeFields(Pad2(x) + [sep1] + Pad2(y) + [sep2] + Pad2(z), sep1, sep2) == Some((x, y, z))
  {
    var a, b, c := Pad2(x), Pad2(y), Pad2(z);
    NumberTextHasNo(x, sep1);
    NumberTextHasNo(y, sep2);
    assert a + [sep1] + b + [sep2] + c == a + [sep1] + (b + [sep2] + c);
    SplitAtJoin(a, sep1, b + [sep2] + c);
    SplitAtJoin(b, sep2, c);
    Pad2RoundTrip(x);
    Pad2RoundTrip(y);
    Pad2RoundTrip(z);
  }

  /** `stringInmmssSS` shows exactly the three `msS` components, for any time. */
  lemma StringInmmssSSRoundTrip(t: CMTime)
    ensures ParseThreeFields(StringInmmssSS(t), ':', '.') == Some(MsS(t))
  {
    var (m, sec, h) := MsS(t);
    ThreeFieldsRoundTrip(m, sec, h, ':', '.');
  }

  /** `stringInmmmsssSS` shows exactly the three `msS` components, for any time. */
  lemma StringInmmmsssSSRoundTrip(t: CMTime)
    ensures ParseThreeFields(StringInmmmsssSS(t), 'm', 's') == Some(MsS(t))
  {
    var (m, sec, h) := MsS(t);
    ThreeFieldsRoundTrip(m, sec, h, 'm', 's');
  }

  /** Under 100 minutes, every field is exactly two digits wide:
      "MM:SS.hh" and "MMmSSsHH" are eight characters. */
  lemma TwoDigitFields(t: CMTime)
    requires 0.0 <= Seconds(t) < 6000.0
    ensures var s := StringInmmssSS(t);
            |s| == 8 && s[2] == ':' && s[5] == '.' && AllDigits(s[..2] + s[3..5] + s[6..])
    ensures var s := StringInmmmsssSS(t);
            |s| == 8 && s[2] == 'm' && s[5] == 's' && AllDigits(s[..2] + s[3..5] + s[6..])
  {
    var (m, sec, h) := MsS(t);
    assert 0 <= m < 100;
    FixedLayout(Pad2(m), Pad2(sec), Pad2(h), ':', '.');
    FixedLayout(Pad2(m), Pad2(sec), Pad2(h), 'm', 's');
  }

  /** Three two-digit fields joined by two separators. */
  lemma FixedLayout(a: string, b: string, c: string, sep1: char, sep2: char)
    requires |a| == 2 && |b| == 2 && |c| == 2
    requires AllDigits(a) && AllDigits(b) && AllDigits(c)
    ensures var s := a + [sep1] + b + [sep2] + c;
            |s| == 8 && s[2] == sep1 && s[5] == sep2 && AllDigits(s[..2] + s[3..5] + s[6..])
  {
    var s := a + [sep1] + b + [sep2] + c;
    assert s[..2] + s[3..5] + s[6..] == a + b + c;
  }
}

=== FILE: cmtime.dfy ===
/** CoreMedia time values. A `CMTime` is a rational number of seconds,
    `value / timescale`, with a positive timescale. Arithmetic is exact:
    CoreMedia picks a common timescale and rounds only on overflow, which
    this model never reaches. */
module CMTimes {

  type Timescale = t: int | t > 0 witness 1

  datatype CMTime = CMTime(value: int, timescale: Timescale)

  /** A `CMTimeRange`, stored (as CoreMedia stores it) as start and duration. */
  datatype TimeRange = TimeRange(start: CMTime, duration: CMTime)

  /** `kCMTimeZero`. */
  const Zero: CMTime := CMTime(0, 1)

  /** `kCMTimeRangeZero`. */
  const ZeroRange: TimeRange := TimeRange(Zero, Zero)

  /** `CMTimeGetSeconds`, without the rounding of a Double. */
  function Seconds(t: CMTime): real {
    t.value as real / t.timescale as real
  }

  lemma SecondsScale(t: CMTime)
    ensures Seconds(t) * t.timescale as real == t.value as real
  {
  }

  /** `CMTimeCompare(a, b) < 0`, decided on integers by cross-multiplication. */
  predicate Less(a: CMTime, b: CMTime) {
    a.value * b.timescale < b.value * a.timescale
  }

  lemma LessIsSecondsOrder(a: CMTime, b: CMTime)
    ensures Less(a, b) <==> Seconds(a) < Seconds(b)
  {
    var x, y := Seconds(a), Seconds(b);
    var p, q := a.timescale as real, b.timescale as real;
    SecondsScale(a);
    SecondsScale(b);
    assert a.value as real * q == x * p * q;
    assert b.value as real * p == y * q * p;
    assert (a.value * b.timescale) as real == a.value as real * q;
    assert (b.value * a.timescale) as real == b.value as real * p;
    if x < y {
      assert x * (p * q) < y * (p * q);
    } else {
      assert y * (p * q) <= x * (p * q);
    }
  }

  /** At one timescale, time order is tick order. */
  lemma SameTimescaleOrder(a: CMTime, b: CMTime)
    requires a.timescale == b.timescale
    ensures Seconds(a) <= Seconds(b) <==> a.value <= b.value
    ensures Seconds(a) < Seconds(b) <==> a.value < b.value
  {
    LessIsSecondsOrder(a, b);
    LessIsSecondsOrder(b, a);
    var t := a.timescale;
    assert a.value < b.value <==> a.value * t < b.value * t;
    assert b.value < a.value <==> b.value * t < a.value * t;
  }

  /** Swift's integer conversion of a floating-point value: truncation toward zero. */
  function Trunc(x: real): (n: int)
    ensures x >= 0.0 ==> n == x.Floor
    ensures x >= 0.0 ==> n as real <= x < n as real + 1.0
    ensures x < 0.0 ==> n as real - 1.0 < x <= n as real
  {
    if x >= 0.0 then x.Floor else -((-x).Floor)
  }

  /** `CMTimeAdd`: the exact sum. */
  function Add(a: CMTime, b: CMTime): (r: CMTime)
    ensures Seconds(r) == Seconds(a) + Seconds(b)
    ensures a.timescale == b.timescale ==> r.timescale == a.timescale
  {
    if a.timescale == b.timescale then
      var r := CMTime(a.value + b.value, a.timescale);
      assert Seconds(r) == Seconds(a) + Seconds(b) by {
        assert (a.value + b.value) as real == a.value as real + b.value as real;
      }
      r
    else
      var r := CMTime(a.value * b.timescale + b.value * a.timescale, a.timescale * b.timescale);
      assert Seconds(r) == Seconds(a) + Seconds(b) by { CrossSum(a, b); }
      r
  }

  lemma CrossSum(a: CMTime, b: CMTime)
    ensures (a.value * b.timescale + b.value * a.timescale) as real / (a.timescale * b.timescale) as real
            == Seconds(a) + Seconds(b)
  {
    var p, q := a.timescale as real, b.timescale as real;
    var x, y := Seconds(a), Seconds(b);
    SecondsScale(a);
    SecondsScale(b);
    assert (a.value * b.timescale + b.value * a.timescale) as real == a.value as real * q + b.value as real * p;
    assert a.value as real * q + b.value as real * p == (x + y) * (p * q);
    assert (a.timescale * b.timescale) as real == p * q;
  }

  /** `CMTimeSubtract`: the exact difference. */
  function Sub(a: CMTime, b: CMTime): (r: CMTime)
    ensures Seconds(r) == Seconds(a) - Seconds(b)
    ensures a.timescale == b.timescale ==> r.timescale == a.timescale
  {
    var nb := CMTime(-b.value, b.timescale);
    assert Seconds(nb) == -Seconds(b) by { NegSeconds(b); }
    Add(a, nb)
  }

  lemma NegSeconds(b: CMTime)
    ensures Seconds(CMTime(-b.value, b.timescale)) == -Seconds(b)
  {
    var nb := CMTime(-b.value, b.timescale);
    SecondsScale(b);
    SecondsScale(nb);
    var q := b.timescale as real;
    assert (Seconds(nb) + Seconds(b)) * q == 0.0;
  }

  /** `CMTimeMinimum`: the earlier argument, the first one on a tie. */
  function Minimum(a: CMTime, b: CMTime): (r: CMTime)
    ensures r == a || r == b
    ensures Seconds(r) <= Seconds(a) && Seconds(r) <= Seconds(b)
  {
    LessIsSecondsOrder(b, a);
    if Less(b, a) then b else a
  }

  /** `CMTimeMaximum`: the later argument, the first one on a tie. */
  function Maximum(a: CMTime, b: CMTime): (r: CMTime)
    ensures r == a || r == b
    ensures Seconds(r) >= Seconds(a) && Seconds(r) >= Seconds(b)
  {
    LessIsSecondsOrder(a, b);
    if Less(a, b) then b else a
  }

  /** `CMTimeRange.end`, that is start + duration. */
  function End(r: TimeRange): (e: CMTime)
    ensures Seconds(e) == Seconds(r.start) + Seconds(r.duration)
  {
    Add(r.start, r.duration)
  }

  /** `CMTimeRange(start:end:)`: the duration is end - start. */
  function RangeFromTo(start: CMTime, end: CMTime): (r: TimeRange)
    ensures r.start == start
    ensures Seconds(End(r)) == Seconds(end)
    ensures Seconds(r.duration) == Seconds(end) - Seconds(start)
  {
    TimeRange(start, Sub(end, start))
  }
}

=== FILE: decimal.dfy ===
/** Decimal rendering of integers as `String(format:)` does it for `%d` and
    `%02d`, together with the parser that reads such text back. */
module Decimal {
  import opened Wrappers

  predicate IsDigit(c: char) {
    '0' <= c <= '9'
  }

  predicate AllDigits(s: string) {
    forall i :: 0 <= i < |s| ==> IsDigit(s[i])
  }

  function DigitChar(d: nat): (c: char)
    requires d < 10
    ensures IsDigit(c) && (c as int) - ('0' as int) == d
  {
    ('0' as int + d) as char
  }

  /** The shortest decimal text of a natural number. */
  function NatToString(n: nat): (s: string)
    ensures |s| >= 1 && AllDigits(s)
    ensures n < 10 <==> |s| == 1
    ensures s[0] == '0' <==> n == 0
  {
    if n < 10 then [DigitChar(n)] else NatToString(n / 10) + [DigitChar(n % 10)]
  }

  /** `%d`: a minus sign in front of negative numbers. */
  function IntToString(n: int): (s: string)
    ensures |s| >= 1
    ensures forall i :: 0 <= i < |s| ==> IsDigit(s[i]) || s[i] == '-'
    ensures n < 0 <==> s[0] == '-'
  {
    if n < 0 then "-" + NatToString(-n) else NatToString(n)
  }

  /** `%02d`: the text of `%d`, left-padded with zeros to width two. */
  function Pad2(n: int): (s: string)
    ensures |s| >= 2
    ensures forall i :: 0 <= i < |s| ==> IsDigit(s[i]) || s[i] == '-'
    ensures 0 <= n < 100 <==> (|s| == 2 && AllDigits(s))
  {
    var d := IntToString(n);
    if |d| < 2 then ['0'] + d else d
  }

  /** Reads a string of decimal digits; the empty string reads as zero. */
  function ParseNat(s: string): nat
    requires AllDigits(s)
  {
    if s == [] then 0
    else ParseNat(s[..|s| - 1]) * 10 + ((s[|s| - 1] as int) - ('0' as int))
  }

  /** Reads the text of `%d` or `%02d`: an optional minus sign followed by at
      least one digit. */
  function ParseInt(s: string): (r: Option<int>)
    ensures r.Some? ==> |s| >= 1
  {
    if |s| >= 2 && s[0] == '-' && AllDigits(s[1..]) then Some(-(ParseNat(s[1..]) as int))
    else if |s| >= 1 && AllDigits(s) then Some(ParseNat(s))
    else None
  }

  lemma {:induction false} ParseNatToString(n: nat)
    ensures ParseNat(NatToString(n)) == n
  {
    if n >= 10 {
      var s := NatToString(n);
      assert s[..|s| - 1] == NatToString(n / 10);
      ParseNatToString(n / 10);
    }
  }

  lemma {:induction false} ParseNatLeadingZero(s: string)
    requires AllDigits(s)
    ensures AllDigits(['0'] + s) && ParseNat(['0'] + s) == ParseNat(s)
  {
    if s != [] {
      var t := ['0'] + s;
      assert t[..|t| - 1] == ['0'] + s[..|s| - 1];
      ParseNatLeadingZero(s[..|s| - 1]);
    }
  }

  /** `%d` reads back as the number it printed. */
  lemma IntToStringRoundTrip(n: int)
    ensures ParseInt(IntToString(n)) == Some(n)
  {
    var s := IntToString(n);
    if n < 0 {
      ParseNatToString(-n);
      assert s[1..] == NatToString(-n);
    } else {
      ParseNatToString(n);
    }
  }

  /** `%02d` reads back as the number it printed, padding or not. */
  lemma Pad2RoundTrip(n: int)
    ensures ParseInt(Pad2(n)) == Some(n)
  {
    var d := IntToString(n);
    IntToStringRoundTrip(n);
    if |d| < 2 {
      assert n >= 0;
      ParseNatToString(n);
      ParseNatLeadingZero(d);
    }
  }

  /** The text before and after the first occurrence of `sep`. */
  function SplitAt(s: string, sep: char): (r: Option<(string, string)>)
    ensures r.Some? ==> s == r.value.0 + [sep] + r.value.1 && sep !in r.value.0
    ensures r.None? <==> sep !in s
  {
    if s == [] then None
    else if s[0] == sep then Some(([], s[1..]))
    else match SplitAt(s[1..], sep)
      case None => None
      case Some(p) => Some(([s[0]] + p.0, p.1))
  }

  /** Splitting at a separator that does not occur in the first part recovers
      both parts. */
  lemma {:induction false} SplitAtJoin(a: string, sep: char, b: string)
    requires sep !in a
    ensures SplitAt(a + [sep] + b, sep) == Some((a, b))
  {
    var s := a + [sep] + b;
    if a == [] {
      assert s[1..] == b;
    } else {
      assert s[0] == a[0] != sep;
      assert s[1..] == a[1..] + [sep] + b;
      SplitAtJoin(a[1..], sep, b);
      assert [a[0]] + a[1..] == a;
    }
  }

  /** No separator other than a digit or '-' can occur in the text of a number. */
  lemma NumberTextHasNo(n: int, sep: char)
    requires !IsDigit(sep) && sep != '-'
    ensures sep !in IntToString(n) && sep !in Pad2(n)
  {
  }
}

=== FILE: live_photo_sandbox.dfy ===
/** The live-photo sandbox: a copy of the movie's player restricted to a
    window of at most one live photo's length centred on the poster frame,
    and its play / stop button. */
module LivePhotoSandbox {
  import opened Wrappers
  import opened CMTimes

  /** The length of a live photo, in seconds. */
  const LivePhotoDuration: real := 3.0

  /** `CMTime(seconds:preferredTimescale:)`: the nearest count of ticks, halves
      rounded away from zero (CoreMedia's default rounding). */
  function TimeFromSeconds(seconds: real, timescale: Timescale): (t: CMTime)
    ensures t.timescale == timescale
    ensures var x := seconds * timescale as real;
            x >= 0.0 ==> (t.value as real) - 0.5 <= x < (t.value as real) + 0.5
    ensures var x := seconds * timescale as real;
            x < 0.0 ==> (t.value as real) - 0.5 < x <= (t.value as real) + 0.5
  {
    var x := seconds * timescale as real;
    if x >= 0.0 then CMTime((x + 0.5).Floor, timescale)
    else CMTime(-((-x + 0.5).Floor), timescale)
  }

  /** Half a live photo at the poster's timescale: exactly 1.5 s when the
      timescale is even, half a tick more when it is odd. */
  function HalfWindow(timescale: Timescale): (offset: CMTime)
    ensures offset.timescale == timescale
    ensures 2 * offset.value == 3 * timescale + timescale % 2
  {
    HalfLivePhotoTicks(timescale);
    TimeFromSeconds(LivePhotoDuration / 2.0, timescale)
  }

  lemma HalfLivePhotoTicks(timescale: Timescale)
    ensures 2 * TimeFromSeconds(LivePhotoDuration / 2.0, timescale).value == 3 * timescale + timescale % 2
  {
    var k := timescale / 2;
    var x := LivePhotoDuration / 2.0 * timescale as real;
    var t := TimeFromSeconds(LivePhotoDuration / 2.0, timescale);
    if timescale % 2 == 0 {
      assert timescale as real == 2.0 * k as real;
      assert x + 0.5 == 3.0 * k as real + 0.5;
      assert t.value == (x + 0.5).Floor;
      assert t.value == 3 * k;
    } else {
      assert timescale as real == 2.0 * k as real + 1.0;
      assert x + 0.5 == 3.0 * k as real + 2.0;
      assert t.value == (x + 0.5).Floor;
      assert t.value == 3 * k + 2;
    }
  }

  datatype Action = PlayAction | PauseAction

  datatype Button = Button(title: string, action: Action)

  /** The sandbox's own player: rate, playhead, volume, the forward playback
      end time of its item, and whether it pauses at the item's end. */
  datatype Player = Player(
    rate: real,
    position: CMTime,
    volume: real,
    forwardPlaybackEndTime: CMTime,
    pausesAtItemEnd: bool)

  datatype Sandbox = Sandbox(
    startTime: CMTime,
    posterTime: CMTime,
    endTime: CMTime,
    player: Player,
    button: Button)

  /** `updatePlayButton`: "■" and pause while playing, otherwise "▶" and
      play with the playhead back on the poster frame. */
  function UpdatePlayButton(s: Sandbox): (r: Sandbox)
    ensures r.button.title == "■" <==> s.player.rate != 0.0
    ensures r.button.title == "▶" <==> s.player.rate == 0.0
    ensures r.button.action == PauseAction <==> s.player.rate != 0.0
    ensures s.player.rate == 0.0 ==> r.player == s.player.(position := s.posterTime)
    ensures s.player.rate != 0.0 ==> r.player == s.player
    ensures r.startTime == s.startTime && r.posterTime == s.posterTime && r.endTime == s.endTime
  {
    var playing := s.player.rate != 0.0;
    var button := if playing then Button("■", PauseAction) else Button("▶", PlayAction);
    var player := if playing then s.player else s.player.(position := s.posterTime);
    s.(button := button, player := player)
  }

  /** `play`: seek to the start of the window, then play. */
  function Play(s: Sandbox): (r: Sandbox)
    ensures r.player.position == s.startTime && r.player.rate != 0.0
    ensures r.startTime == s.startTime && r.posterTime == s.posterTime && r.endTime == s.endTime
    ensures r.player.volume == s.player.volume
    ensures r.player.forwardPlaybackEndTime == s.player.forwardPlaybackEndTime
    ensures r.player.pausesAtItemEnd == s.player.pausesAtItemEnd
    ensures r.button == s.button
  {
    s.(player := s.player.(position := s.startTime, rate := 1.0))
  }

  /** `pause`. */
  function Pause(s: Sandbox): (r: Sandbox)
    ensures r.player.rate == 0.0 && r.player.position == s.player.position
    ensures r.startTime == s.startTime && r.posterTime == s.posterTime && r.endTime == s.endTime
    ensures r.player.volume == s.player.volume
    ensures r.player.forwardPlaybackEndTime == s.player.forwardPlaybackEndTime
    ensures r.player.pausesAtItemEnd == s.player.pausesAtItemEnd
    ensures r.button == s.button
  {
    s.(player := s.player.(rate := 0.0))
  }

  /** The observer of the player's rate re-runs `updatePlayButton`. */
  function OnRateChange(s: Sandbox): Sandbox {
    UpdatePlayButton(s)
  }

  /** The trim window of `init(player:)`: the poster time plus or minus half
      a live photo, clipped to start no earlier than zero and to end no later
      than the movie. */
  function TrimWindow(posterTime: CMTime, duration: CMTime): (w: (CMTime, CMTime))
    ensures var offset := HalfWindow(posterTime.timescale);
            && Seconds(w.0) == (if Seconds(posterTime) - Seconds(offset) > 0.0
                                then Seconds(posterTime) - Seconds(offset) else 0.0)
            && Seconds(w.1) == (if Seconds(posterTime) + Seconds(offset) < Seconds(duration)
                                then Seconds(posterTime) + Seconds(offset) else Seconds(duration))
  {
    var offset := HalfWindow(posterTime.timescale);
    (Maximum(Zero, Sub(posterTime, offset)), Minimum(Add(posterTime, offset), duration))
  }

  /** `init(player:)`. `itemDuration` is the duration of a fresh item on the
      player's current asset, `None` when the player has no current item;
      `currentTime` and `volume` are the original player's. Without an item
      the initialiser fails. Otherwise the poster is the current time, the
      window is `TrimWindow`, the item stops at the window's end, and the
      sandbox starts playing from the window's start. */
  function Init(itemDuration: Option<CMTime>, currentTime: CMTime, volume: real): (r: Option<Sandbox>)
    ensures r.None? <==> itemDuration.None?
    ensures r.Some? ==>
              var s := r.value;
              && s.posterTime == currentTime
              && (s.startTime, s.endTime) == TrimWindow(currentTime, itemDuration.value)
              && s.player.forwardPlaybackEndTime == s.endTime
              && s.player.volume == volume
              && s.player.pausesAtItemEnd
  {
    var posterTime := currentTime;
    var duration := itemDuration.GetOr(Zero);
    var (startTime, endTime) := TrimWindow(posterTime, duration);
    if itemDuration.None? then None
    else
      var player := Player(0.0, Zero, volume, endTime, true);
      var s := Sandbox(startTime, posterTime, endTime, player, Button("", PlayAction));
      Some(OnRateChange(Play(UpdatePlayButton(s))))
  }

  // ---------------------------------------------------------------------
  // Window invariants

  /** The window never starts before zero nor ends after the movie. */
  lemma WindowInsideMovie(posterTime: CMTime, duration: CMTime)
    ensures var w := TrimWindow(posterTime, duration);
            Seconds(w.0) >= 0.0 && Seconds(w.1) <= Seconds(duration)
  {
  }

  /** The window is no wider than twice the half window. */
  lemma WindowWidth(posterTime: CMTime, duration: CMTime)
    ensures var w := TrimWindow(posterTime, duration);
            Seconds(w.1) - Seconds(w.0) <= 2.0 * Seconds(HalfWindow(posterTime.timescale))
  {
  }

  /** Twice the half window is one live photo, plus one tick at an odd
      timescale. */
  lemma HalfWindowSeconds(timescale: Timescale)
    ensures 2.0 * Seconds(HalfWindow(timescale)) == LivePhotoDuration + (timescale % 2) as real / timescale as real
  {
    var offset := HalfWindow(timescale);
    var ts := timescale as real;
    var r := (timescale % 2) as real;
    assert 2.0 * Seconds(offset) == (2 * offset.value) as real / ts;
    assert (2 * offset.value) as real == 3.0 * ts + r;
    assert (3.0 * ts + r) / ts == 3.0 * ts / ts + r / ts;
  }

  /** The window is at most one live photo long, plus one tick at an odd
      timescale, where half a live photo is rounded up. */
  lemma WindowAtMostLivePhoto(posterTime: CMTime, duration: CMTime)
    ensures var w := TrimWindow(posterTime, duration);
            Seconds(w.1) - Seconds(w.0)
              <= LivePhotoDuration + (posterTime.timescale % 2) as real / posterTime.timescale as real
  {
    WindowWidth(posterTime, duration);
    HalfWindowSeconds(posterTime.timescale);
  }

  /** At an even timescale the window is at most exactly one live photo long. */
  lemma WindowAtMostLivePhotoEven(posterTime: CMTime, duration: CMTime)
    requires posterTime.timescale % 2 == 0
    ensures var w := TrimWindow(posterTime, duration);
            Seconds(w.1) - Seconds(w.0) <= LivePhotoDuration
  {
    WindowAtMostLivePhoto(posterTime, duration);
  }


  /** A poster inside the movie lies inside its window. */
  lemma PosterInsideWindow(posterTime: CMTime, duration: CMTime)
    requires 0.0 <= Seconds(posterTime) <= Seconds(duration)
    ensures var w := TrimWindow(posterTime, duration);
            Seconds(w.0) <= Seconds(posterTime) <= Seconds(w.1)
  {
    var offset := HalfWindow(posterTime.timescale);
    assert Seconds(offset) > 0.0 by { SecondsScale(offset); }
  }

  /** After `init` the sandbox is playing from the window's start and the
      button offers to stop. */
  lemma InitStartsPlaying(duration: CMTime, currentTime: CMTime, volume: real)
    ensures var s := Init(Some(duration), currentTime, volume).value;
            && s.player.rate != 0.0
            && s.player.position == s.startTime
            && s.button == Button("■", PauseAction)
  {
  }

  /** Pausing, as observed through the rate, brings the playhead back to the
      poster frame and the button back to "▶". */
  lemma PauseShowsPoster(s: Sandbox)
    ensures var r := OnRateChange(Pause(s));
            r.player.position == s.posterTime && r.button == Button("▶", PlayAction)
  {
  }
}

=== FILE: movie_overview_control.dfy ===
/** The movie overview strip: `reload` picks evenly spaced sample times and
    asks a fresh image generator for their thumbnails; a thumbnail is kept
    only if its generator is still the current one. Generators are identified
    by the order in which they were created. */
module MovieOverviewControl {
  import opened Wrappers
  import opened CMTimes

  /** The player's current item, as far as `reload` looks at it. */
  datatype PlayerItem = PlayerItem(hasVideoTrack: bool, duration: CMTime)

  datatype GenerationResult = Succeeded | Failed | Cancelled

  datatype Thumbnail = Thumbnail(generator: nat, requestedTime: CMTime)

  /** An asynchronous request for thumbnails at some times. */
  datatype Request = Request(generator: nat, times: seq<CMTime>)

  /** The overview's state. `trimRange`, `scopeRange` and `currentTime` are
      the fields the rest of the application reads and writes;
      `imageGenerator` is the current generator, `nextGenerator` the identity
      the next one will get, `cancelled` the generators told to cancel, and
      `requests` every request issued so far. */
  datatype Overview = Overview(
    trimRange: TimeRange,
    scopeRange: Option<TimeRange>,
    currentTime: CMTime,
    imageGenerator: Option<nat>,
    nextGenerator: nat,
    numberOfPages: nat,
    thumbnails: seq<Thumbnail>,
    cancelled: set<nat>,
    requests: seq<Request>)

  /** A freshly created overview: no generator, no pages, no thumbnails. */
  function InitialOverview(trimRange: TimeRange, scopeRange: Option<TimeRange>, currentTime: CMTime): Overview {
    Overview(trimRange, scopeRange, currentTime, None, 0, 0, [], {}, [])
  }

  /** Swift's `/` on `Int64`: the quotient truncated toward zero, so the
      remainder is smaller than the divisor and takes the dividend's sign. */
  function TruncDiv(a: int, b: int): (q: int)
    requires b > 0
    ensures a >= 0 ==> 0 <= a - q * b < b
    ensures a < 0 ==> -b < a - q * b <= 0
  {
    if a >= 0 then a / b else -((-a) / b)
  }

  /** The sample times of `reload`: page i is sampled at duration * i / pages,
      in the duration's timescale, the tick count truncated. */
  function SampleTimes(duration: CMTime, pages: nat): (times: seq<CMTime>)
    ensures |times| == pages
    ensures forall i | 0 <= i < pages :: times[i].timescale == duration.timescale
  {
    seq(pages, i requires 0 <= i < pages => CMTime(TruncDiv(duration.value * i, pages), duration.timescale))
  }

  /** `reload`: cancel and drop the current generator and the thumbnails;
      without an item or a video track there are no pages and no request;
      otherwise `pages` pages (the ceiling of the strip width over a page
      width, taken as given) are requested from a new generator. */
  function Reload(o: Overview, item: Option<PlayerItem>, pages: nat): (r: Overview)
    ensures r.thumbnails == []
    ensures o.imageGenerator.Some? ==> o.imageGenerator.value in r.cancelled
    ensures r.cancelled <= o.cancelled + (if o.imageGenerator.Some? then {o.imageGenerator.value} else {})
    ensures (item.None? || !item.value.hasVideoTrack) ==>
              r.numberOfPages == 0 && r.imageGenerator.None? && r.requests == o.requests && r.nextGenerator == o.nextGenerator
    ensures (item.Some? && item.value.hasVideoTrack) ==>
              && r.numberOfPages == pages
              && r.imageGenerator == Some(o.nextGenerator)
              && r.nextGenerator == o.nextGenerator + 1
              && r.requests == o.requests + [Request(o.nextGenerator, SampleTimes(item.value.duration, pages))]
    ensures r.trimRange == o.trimRange && r.scopeRange == o.scopeRange && r.currentTime == o.currentTime
  {
    var cancelled := match o.imageGenerator
      case None => o.cancelled
      case Some(g) => o.cancelled + {g};
    var cleared := o.(imageGenerator := None, thumbnails := [], cancelled := cancelled);
    match item
    case None => cleared.(numberOfPages := 0)
    case Some(it) =>
      if !it.hasVideoTrack then cleared.(numberOfPages := 0)
      else
        var generator := o.nextGenerator;
        cleared.(numberOfPages := pages, imageGenerator := Some(generator), nextGenerator := generator + 1,
                 requests := o.requests + [Request(generator, SampleTimes(it.duration, pages))])
  }

  /** The completion handler: a thumbnail is appended only when generation
      succeeded and its generator is still the current one. */
  function Complete(o: Overview, generator: nat, result: GenerationResult, requestedTime: CMTime): (r: Overview)
    ensures (result == Succeeded && o.imageGenerator == Some(generator)) ==>
              r.thumbnails == o.thumbnails + [Thumbnail(generator, requestedTime)]
    ensures !(result == Succeeded && o.imageGenerator == Some(generator)) ==> r == o
    ensures r.imageGenerator == o.imageGenerator && r.nextGenerator == o.nextGenerator && r.requests == o.requests
  {
    if result != Succeeded then o
    else if o.imageGenerator != Some(generator) then o
    else o.(thumbnails := o.thumbnails + [Thumbnail(generator, requestedTime)])
  }

  // ---------------------------------------------------------------------
  // Sample times

  lemma TruncDivBounds(a: int, n: int)
    requires n > 0 && a >= 0
    ensures TruncDiv(a, n) * n <= a < (TruncDiv(a, n) + 1) * n
  {
  }

  lemma DivMonotone(a: int, b: int, n: int)
    requires n > 0 && 0 <= a <= b
    ensures a / n <= b / n
  {
    var qa, qb := a / n, b / n;
    assert qa * n <= a <= b < (qb + 1) * n;
    MulLessCancel(qa, qb + 1, n);
  }

  lemma MulLessCancel(x: int, y: int, n: int)
    requires n > 0 && x * n < y * n
    ensures x < y
  {
    assert (x - y) * n < 0;
  }

  /** For a non-negative duration, sample i is the largest tick count not
      after i / pages of the duration. */
  lemma SampleTimesEvenlySpaced(duration: CMTime, pages: nat, i: nat)
    requires duration.value >= 0 && i < pages
    ensures var t := SampleTimes(duration, pages)[i];
            t.value * pages <= duration.value * i < (t.value + 1) * pages
  {
    TruncDivBounds(duration.value * i, pages);
  }

  lemma MulMonotone(a: int, i: int, j: int)
    requires a >= 0 && i <= j
    ensures a * i <= a * j
  {
    assert a * (j - i) >= 0;
  }

  lemma MulStrict(a: int, i: int, j: int)
    requires a > 0 && i < j
    ensures a * i < a * j
  {
    assert a * (j - i) > 0;
  }

  /** Later pages are sampled no earlier, and never before zero. */
  lemma SampleTimesMonotone(duration: CMTime, pages: nat, i: nat, j: nat)
    requires duration.value >= 0 && i <= j < pages
    ensures var times := SampleTimes(duration, pages);
            0 <= times[i].value <= times[j].value
  {
    MulMonotone(duration.value, i, j);
    MulMonotone(duration.value, 0, i);
    SampleValue(duration, pages, i);
    SampleValue(duration, pages, j);
    DivMonotone(duration.value * i, duration.value * j, pages);
  }

  /** For a non-negative tick product, truncation is Euclidean division. */
  lemma SampleValue(duration: CMTime, pages: nat, i: nat)
    requires 0 <= i < pages && duration.value * i >= 0
    ensures SampleTimes(duration, pages)[i].value == (duration.value * i) / pages
  {
  }

  /** For a positive duration every sample lies strictly before its end. */
  lemma SampleTimesBeforeEnd(duration: CMTime, pages: nat, i: nat)
    requires duration.value > 0 && i < pages
    ensures Seconds(SampleTimes(duration, pages)[i]) < Seconds(duration)
  {
    var t := SampleTimes(duration, pages)[i];
    SampleTimesEvenlySpaced(duration, pages, i);
    MulStrict(duration.value, i, pages);
    assert t.value * pages < duration.value * pages;
    MulLessCancel(t.value, duration.value, pages);
    SameTimescaleOrder(t, duration);
  }

  /** Sample times start at zero, never decrease, and for a positive
      duration stay strictly before its end. */
  lemma SampleTimesOrdered(duration: CMTime, pages: nat)
    requires duration.value >= 0
    ensures var times := SampleTimes(duration, pages);
            && (pages > 0 ==> times[0].value == 0)
            && (forall i, j | 0 <= i <= j < pages :: 0 <= times[i].value <= times[j].value)
            && (duration.value > 0 ==> forall i | 0 <= i < pages :: Seconds(times[i]) < Seconds(duration))
  {
    forall i: nat, j: nat | i <= j < pages
      ensures 0 <= SampleTimes(duration, pages)[i].value <= SampleTimes(duration, pages)[j].value
    {
      SampleTimesMonotone(duration, pages, i, j);
    }
    if duration.value > 0 {
      forall i: nat | i < pages
        ensures Seconds(SampleTimes(duration, pages)[i]) < Seconds(duration)
      {
        SampleTimesBeforeEnd(duration, pages, i);
      }
    }
  }

  // ---------------------------------------------------------------------
  // The stale-result guard

  datatype Event =
    | ReloadEvent(item: Option<PlayerItem>, pages: nat)
    | CompletionEvent(generator: nat, result: GenerationResult, requestedTime: CMTime)

  function Step(o: Overview, e: Event): Overview {
    match e
    case ReloadEvent(item, pages) => Reload(o, item, pages)
    case CompletionEvent(g, result, time) => Complete(o, g, result, time)
  }

  /** The state after some reloads and completions, in order. */
  function Run(o: Overview, events: seq<Event>): Overview
    decreases |events|
  {
    if events == [] then o else Run(Step(o, events[0]), events[1..])
  }

  /** Every thumbnail on screen came from the current generator, and every
      generator ever created has an identity below `nextGenerator`. */
  predicate Consistent(o: Overview) {
    && (o.imageGenerator.Some? ==> o.imageGenerator.value < o.nextGenerator)
    && (forall i | 0 <= i < |o.thumbnails| :: o.imageGenerator == Some(o.thumbnails[i].generator))
  }

  lemma StepConsistent(o: Overview, e: Event)
    requires Consistent(o)
    ensures Consistent(Step(o, e))
    ensures Step(o, e).nextGenerator >= o.nextGenerator
  {
  }

  /** Results from outdated requests are dropped: once a generator has been
      replaced it is never current again, so nothing it produces is ever
      shown, whatever reloads and completions follow. */
  lemma {:induction false} OutdatedResultsDropped(o: Overview, events: seq<Event>, g: nat)
    requires Consistent(o)
    requires g < o.nextGenerator && o.imageGenerator != Some(g)
    ensures var r := Run(o, events);
            && Consistent(r)
            && r.imageGenerator != Some(g)
            && forall i | 0 <= i < |r.thumbnails| :: r.thumbnails[i].generator != g
    decreases |events|
  {
    if events != [] {
      var o' := Step(o, events[0]);
      StepConsistent(o, events[0]);
      OutdatedResultsDropped(o', events[1..], g);
    }
  }

  /** Reloads and completions never touch the fields the rest of the
      application owns. */
  lemma {:induction false} RunKeepsClientFields(o: Overview, events: seq<Event>)
    ensures var r := Run(o, events);
            r.trimRange == o.trimRange && r.scopeRange == o.scopeRange && r.currentTime == o.currentTime
    decreases |events|
  {
    if events != [] {
      RunKeepsClientFields(Step(o, events[0]), events[1..]);
    }
  }

  /** From a fresh overview, whatever reloads and completions follow, every
      thumbnail shown comes from the current generator, and the trim range,
      scope range and current time are the ones it was created with. */
  lemma FreshOverviewRuns(trimRange: TimeRange, scopeRange: Option<TimeRange>, currentTime: CMTime, events: seq<Event>)
    ensures var r := Run(InitialOverview(trimRange, scopeRange, currentTime), events);
            && Consistent(r)
            && r.trimRange == trimRange && r.scopeRange == scopeRange && r.currentTime == currentTime
  {
    var o := InitialOverview(trimRange, scopeRange, currentTime);
    RunConsistent(o, events);
    RunKeepsClientFields(o, events);
  }

  lemma {:induction false} RunConsistent(o: Overview, events: seq<Event>)
    requires Consistent(o)
    ensures Consistent(Run(o, events))
    decreases |events|
  {
    if events != [] {
      StepConsistent(o, events[0]);
      RunConsistent(Step(o, events[0]), events[1..]);
    }
  }
}

=== FILE: overview_touch_bar.dfy ===
/** The Touch Bar overview: a touch moves the scope window (a fixed-length
    part of the trimmed movie) so that it starts where the finger is, but
    never runs past the end of the trim range. */
module OverviewTouchBar {
  import opened Wrappers
  import opened CMTimes
  import opened MovieOverviewControl

  datatype TouchType = Direct | Indirect

  /** A touch, reduced to its kind and its horizontal position as a fraction
      of the view's width. */
  datatype Touch = Touch(touchType: TouchType, fraction: real)

  /** The client's two callbacks: the optional veto on a new scope range and
      whether anyone listens for scope changes. Both are taken to have no
      side effects on the provider or its overview. */
  datatype Callbacks = Callbacks(shouldUpdateScopeRange: Option<TimeRange -> bool>, hasOnScopeChange: bool)

  /** The provider's own state. `notifications` records, in order, the scope
      range the overview held each time `onScopeChange` was called. */
  datatype Provider = Provider(
    trimRange: TimeRange,
    scopeRange: TimeRange,
    dragging: bool,
    overview: Overview,
    notifications: seq<TimeRange>)

  /** A provider around a given overview: both ranges start as the zero
      range, which is not passed on to the overview, and nothing is being
      dragged. */
  function InitialProvider(overview: Overview): (p: Provider)
    ensures p.trimRange == ZeroRange && p.scopeRange == ZeroRange
    ensures !p.dragging && p.notifications == [] && p.overview == overview
  {
    Provider(ZeroRange, ZeroRange, false, overview, [])
  }

  /** The `trimRange` setter: its observer forwards the value to the overview. */
  function SetTrimRange(p: Provider, r: TimeRange): (q: Provider)
    ensures q.trimRange == r && q.overview.trimRange == r
    ensures q.overview == p.overview.(trimRange := r)
    ensures q.scopeRange == p.scopeRange && q.dragging == p.dragging && q.notifications == p.notifications
  {
    p.(trimRange := r, overview := p.overview.(trimRange := r))
  }

  /** The `scopeRange` setter: its observer forwards the value to the overview. */
  function SetScopeRange(p: Provider, r: TimeRange): (q: Provider)
    ensures q.scopeRange == r && q.overview.scopeRange == Some(r)
    ensures q.overview == p.overview.(scopeRange := Some(r))
    ensures q.trimRange == p.trimRange && q.dragging == p.dragging && q.notifications == p.notifications
  {
    p.(scopeRange := r, overview := p.overview.(scopeRange := Some(r)))
  }

  /** The time under the finger: the trim start plus the touched fraction
      of the trim duration, truncated to a whole number of ticks in the
      duration's timescale. */
  function TouchTime(trim: TimeRange, fraction: real): (t: CMTime)
    ensures trim.duration.value >= 0 && 0.0 <= fraction <= 1.0 ==>
              Seconds(trim.start) <= Seconds(t) <= Seconds(End(trim))
  {
    var offset := CMTime(Trunc(trim.duration.value as real * fraction), trim.duration.timescale);
    OffsetWithinDuration(trim.duration, fraction);
    var t := Add(trim.start, offset);
    assert Seconds(t) == Seconds(trim.start) + Seconds(offset);
    assert Seconds(End(trim)) == Seconds(trim.start) + Seconds(trim.duration);
    t
  }

  lemma OffsetWithinDuration(d: CMTime, fraction: real)
    ensures var offset := CMTime(Trunc(d.value as real * fraction), d.timescale);
            d.value >= 0 && 0.0 <= fraction <= 1.0 ==> 0.0 <= Seconds(offset) <= Seconds(d)
  {
    var offset := CMTime(Trunc(d.value as real * fraction), d.timescale);
    if d.value >= 0 && 0.0 <= fraction <= 1.0 {
      TruncatedFraction(d.value, fraction);
      SameTimescaleOrder(offset, d);
      assert Seconds(CMTime(0, d.timescale)) == 0.0;
      SameTimescaleOrder(CMTime(0, d.timescale), offset);
    }
  }

  /** A truncated fraction of n ticks is between 0 and n ticks. */
  lemma TruncatedFraction(n: int, f: real)
    requires n >= 0 && 0.0 <= f <= 1.0
    ensures 0 <= Trunc(n as real * f) <= n
  {
    var x := n as real * f;
    assert 0.0 <= x <= n as real by {
      assert n as real * (1.0 - f) >= 0.0;
    }
    assert x - 1.0 < x.Floor as real <= x;
  }

  /** The scope's length: that of the overview's scope range, zero without one. */
  function ScopeDuration(o: Overview): CMTime {
    match o.scopeRange
    case Some(r) => r.duration
    case None => Zero
  }

  /** The scope range a touch asks for: it keeps the scope's length and
      starts at the touched time, unless that would carry its end past the
      trim end, in which case it ends exactly there. */
  function NewScopeRange(o: Overview, fraction: real): (r: TimeRange)
    ensures Seconds(r.duration) == Seconds(ScopeDuration(o))
    ensures Seconds(End(r)) <= Seconds(End(o.trimRange))
    ensures var touched := TouchTime(o.trimRange, fraction);
            if Seconds(touched) + Seconds(ScopeDuration(o)) <= Seconds(End(o.trimRange))
            then Seconds(r.start) == Seconds(touched)
            else Seconds(End(r)) == Seconds(End(o.trimRange))
  {
    var duration := ScopeDuration(o);
    var touched := TouchTime(o.trimRange, fraction);
    var maxStart := Sub(End(o.trimRange), duration);
    var start := Minimum(touched, maxStart);
    RangeFromTo(start, Add(start, duration))
  }

  /** `seekToTouchPosition`: the new scope range is installed in the overview
      (not in the provider's own `scopeRange`) and reported to the listener
      only when the veto callback exists and approves it. */
  function SeekToTouchPosition(p: Provider, cb: Callbacks, touch: Touch): (q: Provider)
    ensures var r := NewScopeRange(p.overview, touch.fraction);
            var approved := cb.shouldUpdateScopeRange.Some? && cb.shouldUpdateScopeRange.value(r);
            && (approved ==> q.overview == p.overview.(scopeRange := Some(r)))
            && (!approved ==> q == p)
            && q.notifications == p.notifications + (if approved && cb.hasOnScopeChange then [r] else [])
    ensures q.trimRange == p.trimRange && q.scopeRange == p.scopeRange && q.dragging == p.dragging
  {
    var r := NewScopeRange(p.overview, touch.fraction);
    match cb.shouldUpdateScopeRange
    case None => p
    case Some(shouldUpdate) =>
      if !shouldUpdate(r) then p
      else
        var overview := p.overview.(scopeRange := Some(r));
        p.(overview := overview, notifications := p.notifications + (if cb.hasOnScopeChange then [overview.scopeRange.value] else []))
  }

  /** `touchesBegan`: only a direct touch starts a drag and seeks. */
  function TouchesBegan(p: Provider, cb: Callbacks, touch: Option<Touch>): (q: Provider)
    ensures touch.Some? && touch.value.touchType == Direct ==>
              q.dragging && q == SeekToTouchPosition(p.(dragging := true), cb, touch.value)
    ensures !(touch.Some? && touch.value.touchType == Direct) ==> q == p
  {
    match touch
    case Some(t) => if t.touchType == Direct then SeekToTouchPosition(p.(dragging := true), cb, t) else p
    case None => p
  }

  /** `touchesMoved`: any touch seeks; the drag state is untouched. */
  function TouchesMoved(p: Provider, cb: Callbacks, touch: Option<Touch>): (q: Provider)
    ensures q.dragging == p.dragging
    ensures touch.Some? ==> q == SeekToTouchPosition(p, cb, touch.value)
    ensures touch.None? ==> q == p
  {
    match touch
    case Some(t) => SeekToTouchPosition(p, cb, t)
    case None => p
  }

  /** `touchesEnded`: any touch ends the drag and seeks once more. */
  function TouchesEnded(p: Provider, cb: Callbacks, touch: Option<Touch>): (q: Provider)
    ensures touch.Some? ==> !q.dragging && q == SeekToTouchPosition(p.(dragging := false), cb, touch.value)
    ensures touch.None? ==> q == p
  {
    match touch
    case Some(t) => SeekToTouchPosition(p.(dragging := false), cb, t)
    case None => p
  }

  // ---------------------------------------------------------------------
  // Touch sequences

  datatype TouchEvent =
    | Began(touch: Option<Touch>)
    | Moved(touch: Option<Touch>)
    | Ended(touch: Option<Touch>)

  function Handle(p: Provider, cb: Callbacks, e: TouchEvent): Provider {
    match e
    case Began(t) => TouchesBegan(p, cb, t)
    case Moved(t) => TouchesMoved(p, cb, t)
    case Ended(t) => TouchesEnded(p, cb, t)
  }

  function HandleAll(p: Provider, cb: Callbacks, events: seq<TouchEvent>): Provider
    decreases |events|
  {
    if events == [] then p else HandleAll(Handle(p, cb, events[0]), cb, events[1..])
  }

  predicate OnView(e: TouchEvent) {
    e.touch.Some? ==> 0.0 <= e.touch.value.fraction <= 1.0
  }

  /** The scope lies inside the trim range. */
  predicate ScopeInsideTrim(o: Overview) {
    o.scopeRange.Some? ==>
      && Seconds(o.trimRange.start) <= Seconds(o.scopeRange.value.start)
      && Seconds(End(o.scopeRange.value)) <= Seconds(End(o.trimRange))
  }

  /** One touch never changes the provider's trim range, its own scope
      range, the overview's trim range or the scope's length. */
  lemma HandleKeepsShape(p: Provider, cb: Callbacks, e: TouchEvent)
    ensures var q := Handle(p, cb, e);
            && q.trimRange == p.trimRange && q.scopeRange == p.scopeRange
            && q.overview.trimRange == p.overview.trimRange
            && Seconds(ScopeDuration(q.overview)) == Seconds(ScopeDuration(p.overview))
  {
  }

  /** Dragging moves the scope but never resizes it: after any touches the
      scope is as long as before (zero if there was none). */
  lemma {:induction false} DraggingKeepsScopeLength(p: Provider, cb: Callbacks, events: seq<TouchEvent>)
    ensures var q := HandleAll(p, cb, events);
            && Seconds(ScopeDuration(q.overview)) == Seconds(ScopeDuration(p.overview))
            && q.overview.trimRange == p.overview.trimRange
            && q.trimRange == p.trimRange && q.scopeRange == p.scopeRange
    decreases |events|
  {
    if events != [] {
      HandleKeepsShape(p, cb, events[0]);
      DraggingKeepsScopeLength(Handle(p, cb, events[0]), cb, events[1..]);
    }
  }

  /** A touch on the view keeps a scope that fits in the trim range inside it. */
  lemma SeekKeepsScopeInside(p: Provider, cb: Callbacks, touch: Touch)
    requires 0.0 <= touch.fraction <= 1.0
    requires p.overview.trimRange.duration.value >= 0
    requires 0.0 <= Seconds(ScopeDuration(p.overview)) <= Seconds(p.overview.trimRange.duration)
    ensures var q := SeekToTouchPosition(p, cb, touch);
            ScopeInsideTrim(p.overview) ==> ScopeInsideTrim(q.overview)
  {
    var o := p.overview;
    var r := NewScopeRange(o, touch.fraction);
    var touched := TouchTime(o.trimRange, touch.fraction);
    if Seconds(touched) + Seconds(ScopeDuration(o)) > Seconds(End(o.trimRange)) {
      assert Seconds(r.start) == Seconds(End(r)) - Seconds(r.duration);
    }
  }

  /** While every touch lands on the view and the scope fits in the trim
      range, the scope stays inside the trim range, whatever the callbacks
      decide. */
  lemma {:induction false} TouchesKeepScopeInside(p: Provider, cb: Callbacks, events: seq<TouchEvent>)
    requires forall i | 0 <= i < |events| :: OnView(events[i])
    requires p.overview.trimRange.duration.value >= 0
    requires 0.0 <= Seconds(ScopeDuration(p.overview)) <= Seconds(p.overview.trimRange.duration)
    requires ScopeInsideTrim(p.overview)
    ensures ScopeInsideTrim(HandleAll(p, cb, events).overview)
    decreases |events|
  {
    if events != [] {
      var e := events[0];
      var p' := Handle(p, cb, e);
      match e {
        case Began(t) =>
          if t.Some? && t.value.touchType == Direct {
            SeekKeepsScopeInside(p.(dragging := true), cb, t.value);
          }
        case Moved(t) =>
          if t.Some? {
            SeekKeepsScopeInside(p, cb, t.value);
          }
        case Ended(t) =>
          if t.Some? {
            SeekKeepsScopeInside(p.(dragging := false), cb, t.value);
          }
      }
      HandleKeepsShape(p, cb, e);
      assert forall i | 0 <= i < |events[1..]| :: OnView(events[1..][i]) by {
        forall i | 0 <= i < |events[1..]| ensures OnView(events[1..][i]) {
          assert events[1..][i] == events[i + 1];
        }
      }
      TouchesKeepScopeInside(p', cb, events[1..]);
    }
  }

  /** A drag is in progress exactly from a direct `touchesBegan` to the next
      `touchesEnded` with a touch. */
  lemma DraggingState(p: Provider, cb: Callbacks, e: TouchEvent)
    ensures var q := Handle(p, cb, e);
            q.dragging == (match e
                           case Began(t) => p.dragging || (t.Some? && t.value.touchType == Direct)
                           case Moved(_) => p.dragging
                           case Ended(t) => p.dragging && t.None?)
  {
  }

  // ---------------------------------------------------------------------
  // The provider's ranges and the overview's

  /** Everything that changes a provider: its two setters and touches. */
  datatype ProviderEvent = SetTrim(range: TimeRange) | SetScope(range: TimeRange) | Touched(event: TouchEvent)

  function Apply(p: Provider, cb: Callbacks, e: ProviderEvent): Provider {
    match e
    case SetTrim(r) => SetTrimRange(p, r)
    case SetScope(r) => SetScopeRange(p, r)
    case Touched(t) => Handle(p, cb, t)
  }

  function ApplyAll(p: Provider, cb: Callbacks, events: seq<ProviderEvent>): Provider
    decreases |events|
  {
    if events == [] then p else ApplyAll(Apply(p, cb, events[0]), cb, events[1..])
  }

  /** The overview shows the provider's trim range. */
  predicate TrimMirrored(p: Provider) {
    p.overview.trimRange == p.trimRange
  }

  /** The overview shows the provider's scope range. */
  predicate ScopeMirrored(p: Provider) {
    p.overview.scopeRange == Some(p.scopeRange)
  }

  /** Once the trim range has been set, the overview keeps showing the
      provider's trim range through any setters and touches, and the trim
      range is the one last set. */
  lemma {:induction false} TrimStaysMirrored(p: Provider, cb: Callbacks, events: seq<ProviderEvent>)
    requires TrimMirrored(p)
    ensures TrimMirrored(ApplyAll(p, cb, events))
    ensures ApplyAll(p, cb, events).trimRange == LastTrim(p.trimRange, events)
    decreases |events|
  {
    if events != [] {
      var q := Apply(p, cb, events[0]);
      if events[0].Touched? {
        HandleKeepsShape(p, cb, events[0].event);
      }
      TrimStaysMirrored(q, cb, events[1..]);
      LastTrimStep(p.trimRange, q.trimRange, events);
    }
  }

  /** The trim range last set by the events, `initial` if none sets it. */
  function LastTrim(initial: TimeRange, events: seq<ProviderEvent>): TimeRange
    decreases |events|
  {
    if events == [] then initial
    else LastTrim(if events[0].SetTrim? then events[0].range else initial, events[1..])
  }

  lemma LastTrimStep(initial: TimeRange, next: TimeRange, events: seq<ProviderEvent>)
    requires events != []
    requires next == if events[0].SetTrim? then events[0].range else initial
    ensures LastTrim(initial, events) == LastTrim(next, events[1..])
  {
  }

  /** Setting the scope range makes the overview show it, and setting the
      trim range leaves that so; but a touch the client approves moves only
      the overview's scope, so the two part whenever it moves the scope
      elsewhere. */
  lemma ScopeMirrorAndTouches(p: Provider, cb: Callbacks, r: TimeRange, t: TimeRange, touch: Touch)
    ensures ScopeMirrored(SetScopeRange(p, r))
    ensures ScopeMirrored(p) ==> ScopeMirrored(SetTrimRange(p, t))
    ensures var n := NewScopeRange(p.overview, touch.fraction);
            var q := SeekToTouchPosition(p, cb, touch);
            && (cb.shouldUpdateScopeRange.Some? && cb.shouldUpdateScopeRange.value(n) && n != p.scopeRange ==>
                  !ScopeMirrored(q))
            && (!(cb.shouldUpdateScopeRange.Some? && cb.shouldUpdateScopeRange.value(n)) ==>
                  ScopeMirrored(q) == ScopeMirrored(p))
  {
  }
}

=== FILE: quicktime_mov.dfy ===
/** The Live Photo metadata of a QuickTime movie: reading the content
    identifier and the still-image-time marker, and the layout of the movie
    that `write` produces. Movies are abstract values; the AVFoundation reader
    and writer objects that move the bytes are not modelled. */
module QuickTimeMov {
  import opened Wrappers
  import opened CMTimes

  const ContentIdentifierKey: string := "com.apple.quicktime.content.identifier"
  const StillImageTimeKey: string := "com.apple.quicktime.still-image-time"
  /** `AVMetadataKeySpace.quickTimeMetadata`. */
  const QuickTimeMetadataKeySpace: string := "mdta"
  const DataTypeUTF8: string := "com.apple.metadata.datatype.UTF-8"
  const DataTypeInt8: string := "com.apple.metadata.datatype.int8"
  /** `AVVideoCodecH264`. */
  const CodecH264: string := "avc1"
  /** `AVFileType.mov`. */
  const FileTypeQuickTimeMovie: string := "com.apple.quicktime-movie"

  /** The placeholder range of the still-image-time group: from 0/1000 s to 200/3000 s. */
  const DummyTimeRange: TimeRange := RangeFromTo(CMTime(0, 1000), CMTime(200, 3000))

  /** The value of a metadata item: a string, a number, or anything else. */
  datatype MetadataValue = Text(text: string) | Number(number: int) | OtherValue

  /** An `AVMetadataItem`. A key that is not a string is `None`. */
  datatype MetadataItem = MetadataItem(
    key: Option<string>,
    keySpace: Option<string>,
    value: Option<MetadataValue>,
    dataType: Option<string>)

  datatype TimedMetadataGroup = TimedMetadataGroup(items: seq<MetadataItem>, timeRange: TimeRange)

  /** A sample buffer read from a metadata track: how many samples it holds,
      and the timed metadata group decoded from it, if any. */
  datatype MetadataSample = MetadataSample(numSamples: nat, group: Option<TimedMetadataGroup>)

  /** A metadata track: its format description's identifier and data type, and
      the sample buffers a reader yields from it, in order. */
  datatype MetadataTrack = MetadataTrack(
    specIdentifier: string,
    specDataType: string,
    samples: seq<MetadataSample>)

  datatype Size = Size(width: real, height: real)
  datatype AffineTransform = AffineTransform(a: real, b: real, c: real, d: real, tx: real, ty: real)

  /** A decoded video frame; its pixels are not looked at. */
  datatype Frame = Frame(time: CMTime, pixels: seq<int>)

  /** A video track: size, orientation, the codec the writer was told to use
      (unknown for a source track), and the frames in reader order. */
  datatype VideoTrack = VideoTrack(
    naturalSize: Size,
    preferredTransform: AffineTransform,
    codec: Option<string>,
    frames: seq<Frame>)

  /** A movie file: file-level QuickTime metadata and its tracks, in order. */
  datatype Movie = Movie(
    fileType: string,
    metadata: seq<MetadataItem>,
    videoTracks: seq<VideoTrack>,
    metadataTracks: seq<MetadataTrack>)

  /** The first element satisfying `p`, if any. */
  function FirstIndex<T>(s: seq<T>, p: T -> bool): (r: Option<nat>)
    ensures r.Some? ==> r.value < |s| && p(s[r.value])
    ensures r.Some? ==> forall j | 0 <= j < r.value :: !p(s[j])
    ensures r.None? ==> forall j | 0 <= j < |s| :: !p(s[j])
  {
    if s == [] then None
    else if p(s[0]) then Some(0)
    else match FirstIndex(s[1..], p)
      case None => None
      case Some(i) => Some(i + 1)
  }

  /** `item.value as? String`. */
  function StringValue(v: Option<MetadataValue>): Option<string> {
    match v
    case Some(Text(s)) => Some(s)
    case _ => None
  }

  /** `item.numberValue`. */
  function NumberValue(v: Option<MetadataValue>): Option<int> {
    match v
    case Some(Number(n)) => Some(n)
    case _ => None
  }

  predicate IsContentIdentifierItem(item: MetadataItem) {
    item.key == Some(ContentIdentifierKey) && item.keySpace == Some(QuickTimeMetadataKeySpace)
  }

  predicate IsStillImageTimeItem(item: MetadataItem) {
    item.key == Some(StillImageTimeKey) && item.keySpace == Some(QuickTimeMetadataKeySpace)
  }

  /** `i` is the first position holding a content-identifier item. */
  predicate FirstContentIdentifierAt(items: seq<MetadataItem>, i: int) {
    && 0 <= i < |items|
    && IsContentIdentifierItem(items[i])
    && forall j | 0 <= j < i :: !IsContentIdentifierItem(items[j])
  }

  /** `readAssetIdentifier`: the first item with the content-identifier key in
      the QuickTime metadata key space decides; its value is the answer only if
      it is a string. */
  function ReadAssetIdentifier(items: seq<MetadataItem>): (r: Option<string>)
    ensures forall i | FirstContentIdentifierAt(items, i) :: r == StringValue(items[i].value)
    ensures (forall i | 0 <= i < |items| :: !IsContentIdentifierItem(items[i])) ==> r.None?
    ensures r.Some? ==> exists i :: 0 <= i < |items| && IsContentIdentifierItem(items[i]) && items[i].value == Some(Text(r.value))
  {
    match FirstIndex(items, IsContentIdentifierItem)
    case None => None
    case Some(i) =>
      assert FirstContentIdentifierAt(items, i);
      StringValue(items[i].value)
  }

  /** The items of the timed metadata group decoded from a sample. */
  function GroupItems(sample: MetadataSample): seq<MetadataItem> {
    match sample.group
    case None => []
    case Some(g) => g.items
  }

  /** A sample decides the scan when it is non-empty and its group holds a
      still-image-time item. */
  predicate Decides(sample: MetadataSample) {
    sample.numSamples != 0 && exists j :: 0 <= j < |GroupItems(sample)| && IsStillImageTimeItem(GroupItems(sample)[j])
  }

  /** The number carried by the first still-image-time item of a deciding sample. */
  function Verdict(sample: MetadataSample): Option<int>
    requires Decides(sample)
  {
    var i := FirstIndex(GroupItems(sample), IsStillImageTimeItem);
    NumberValue(GroupItems(sample)[i.value].value)
  }

  /** `i` is the first sample that decides the scan. */
  predicate FirstDecidingAt(samples: seq<MetadataSample>, i: int) {
    && 0 <= i < |samples|
    && Decides(samples[i])
    && forall j | 0 <= j < i :: !Decides(samples[j])
  }

  /** The sample loop of `readStillImageTime`: empty samples are skipped, and
      the first still-image-time item found returns its number payload. */
  function ScanSamples(samples: seq<MetadataSample>): (r: Option<int>)
    ensures forall i | FirstDecidingAt(samples, i) :: r == Verdict(samples[i])
    ensures (forall i | 0 <= i < |samples| :: !Decides(samples[i])) ==> r.None?
  {
    match FirstIndex(samples, Decides)
    case None => None
    case Some(i) =>
      assert FirstDecidingAt(samples, i);
      Verdict(samples[i])
  }

  /** `readStillImageTime`: scans the first metadata track; no metadata track
      means no answer. */
  function ReadStillImageTime(m: Movie): (r: Option<int>)
    ensures m.metadataTracks == [] ==> r.None?
    ensures m.metadataTracks != [] ==> r == ScanSamples(m.metadataTracks[0].samples)
  {
    if m.metadataTracks == [] then None else ScanSamples(m.metadataTracks[0].samples)
  }

  /** `metadataFor`: the file-level content-identifier item. */
  function MetadataFor(assetIdentifier: string): (item: MetadataItem)
    ensures IsContentIdentifierItem(item)
    ensures StringValue(item.value) == Some(assetIdentifier)
    ensures item.dataType == Some(DataTypeUTF8)
  {
    MetadataItem(Some(ContentIdentifierKey), Some(QuickTimeMetadataKeySpace),
                 Some(Text(assetIdentifier)), Some(DataTypeUTF8))
  }

  /** `metadataForStillImageTime`: the still-image-time item, an int8 zero. */
  function MetadataForStillImageTime(): (item: MetadataItem)
    ensures IsStillImageTimeItem(item)
    ensures NumberValue(item.value) == Some(0)
    ensures item.dataType == Some(DataTypeInt8)
  {
    MetadataItem(Some(StillImageTimeKey), Some(QuickTimeMetadataKeySpace),
                 Some(Number(0)), Some(DataTypeInt8))
  }

  /** `metadataAdapter`: the metadata track whose format description names the
      still-image-time key as `<key space>/<key>` with data type int8. */
  function StillImageTimeTrack(samples: seq<MetadataSample>): (t: MetadataTrack)
    ensures t.specIdentifier == QuickTimeMetadataKeySpace + "/" + StillImageTimeKey
    ensures t.specDataType == DataTypeInt8
    ensures t.samples == samples
  {
    MetadataTrack(QuickTimeMetadataKeySpace + "/" + StillImageTimeKey, DataTypeInt8, samples)
  }

  /** The appending loop of `write`: frames go to the writer in reader order;
      the first append the writer refuses (`accepts(i)` false for the i-th
      append) cancels reading, so nothing after it is written. */
  function AppendFrom(frames: seq<Frame>, accepts: nat -> bool, k: nat): (r: seq<Frame>)
    requires k <= |frames|
    ensures k + |r| <= |frames| && r == frames[k..k + |r|]
    ensures forall i | k <= i < k + |r| :: accepts(i)
    ensures k + |r| < |frames| ==> !accepts(k + |r|)
    decreases |frames| - k
  {
    if k == |frames| then []
    else if accepts(k) then [frames[k]] + AppendFrom(frames, accepts, k + 1)
    else []
  }

  function AppendedFrames(frames: seq<Frame>, accepts: nat -> bool): (r: seq<Frame>)
    ensures r <= frames
    ensures forall i | 0 <= i < |r| :: accepts(i)
    ensures |r| < |frames| ==> !accepts(|r|)
  {
    AppendFrom(frames, accepts, 0)
  }

  /** `write`: without a video track nothing is written. Otherwise the output
      carries the content identifier at file level, the first video track's
      frames (re-encoded as H.264 at its natural size with its transform), and
      a metadata track holding one still-image-time group at `DummyTimeRange`. */
  function Write(src: Movie, assetIdentifier: string, accepts: nat -> bool): (r: Option<Movie>)
    ensures r.None? <==> src.videoTracks == []
    ensures r.Some? ==> r.value.fileType == FileTypeQuickTimeMovie
  {
    if src.videoTracks == [] then None
    else
      var track := src.videoTracks[0];
      var video := VideoTrack(track.naturalSize, track.preferredTransform, Some(CodecH264),
                              AppendedFrames(track.frames, accepts));
      var group := TimedMetadataGroup([MetadataForStillImageTime()], DummyTimeRange);
      Some(Movie(FileTypeQuickTimeMovie, [MetadataFor(assetIdentifier)], [video],
                 [StillImageTimeTrack([MetadataSample(1, Some(group))])]))
  }

  // ---------------------------------------------------------------------
  // Properties of the written movie

  /** The dummy range is non-empty and starts at time zero. */
  lemma DummyTimeRangeShape()
    ensures Seconds(DummyTimeRange.start) == 0.0
    ensures Seconds(DummyTimeRange.duration) > 0.0
    ensures Seconds(End(DummyTimeRange)) * 15.0 == 1.0
  {
  }

  /** The file-level metadata of the output is exactly one item: the content
      identifier, in the QuickTime key space, UTF-8, holding the identifier. */
  lemma WriteFileMetadata(src: Movie, id: string, accepts: nat -> bool)
    requires src.videoTracks != []
    ensures var m := Write(src, id, accepts).value;
            && |m.metadata| == 1
            && m.metadata[0].key == Some(ContentIdentifierKey)
            && m.metadata[0].keySpace == Some(QuickTimeMetadataKeySpace)
            && m.metadata[0].dataType == Some(DataTypeUTF8)
            && m.metadata[0].value == Some(Text(id))
  {
  }

  /** Round trip: the identifier written is the identifier read. */
  lemma WriteReadAssetIdentifier(src: Movie, id: string, accepts: nat -> bool)
    requires src.videoTracks != []
    ensures ReadAssetIdentifier(Write(src, id, accepts).value.metadata) == Some(id)
  {
    var m := Write(src, id, accepts).value;
    assert FirstContentIdentifierAt(m.metadata, 0);
  }

  /** The metadata track of the output holds exactly one non-empty sample whose
      group is one still-image-time item at the dummy range, and the track's
      format description names the same key space and key as that item. */
  lemma WriteMetadataTrack(src: Movie, id: string, accepts: nat -> bool)
    requires src.videoTracks != []
    ensures var m := Write(src, id, accepts).value;
            && |m.metadataTracks| == 1
            && |m.metadataTracks[0].samples| == 1
            && var s := m.metadataTracks[0].samples[0];
            && s.numSamples != 0
            && s.group.Some?
            && s.group.value.timeRange == DummyTimeRange
            && |s.group.value.items| == 1
            && var item := s.group.value.items[0];
            && IsStillImageTimeItem(item)
            && item.value == Some(Number(0))
            && m.metadataTracks[0].specIdentifier == item.keySpace.value + "/" + item.key.value
  {
  }

  /** Round trip: reading the still-image time of a written movie gives the
      int8 payload 0, not the group's time placement. */
  lemma WriteReadStillImageTime(src: Movie, id: string, accepts: nat -> bool)
    requires src.videoTracks != []
    ensures ReadStillImageTime(Write(src, id, accepts).value) == Some(0)
  {
    var m := Write(src, id, accepts).value;
    var samples := m.metadataTracks[0].samples;
    assert GroupItems(samples[0])[0] == MetadataForStillImageTime();
    assert Decides(samples[0]);
    assert FirstDecidingAt(samples, 0);
  }

  /** The output video track comes from the source's first video track: same
      transform, encoded at its natural size, and a prefix of its frames in
      reader order that stops exactly at the first refused append. */
  lemma WriteVideoTrack(src: Movie, id: string, accepts: nat -> bool)
    requires src.videoTracks != []
    ensures var m := Write(src, id, accepts).value;
            var source := src.videoTracks[0];
            && |m.videoTracks| == 1
            && m.videoTracks[0].preferredTransform == source.preferredTransform
            && m.videoTracks[0].naturalSize == source.naturalSize
            && m.videoTracks[0].codec == Some(CodecH264)
            && m.videoTracks[0].frames <= source.frames
            && ((forall j | 0 <= j < |source.frames| :: accepts(j)) ==> m.videoTracks[0].frames == source.frames)
            && (|m.videoTracks[0].frames| < |source.frames| ==> !accepts(|m.videoTracks[0].frames|))
  {
  }

  // ---------------------------------------------------------------------
  // Properties of the readers

  /** The first content-identifier item decides even when its value is not a
      string: a later, well-formed item is never consulted. */
  lemma FirstIdentifierItemDecides(item: MetadataItem, rest: seq<MetadataItem>)
    requires IsContentIdentifierItem(item) && StringValue(item.value).None?
    ensures ReadAssetIdentifier([item] + rest) == None
  {
    assert FirstContentIdentifierAt([item] + rest, 0);
  }

  /** Items outside the QuickTime metadata key space are never read, even with
      the content-identifier key. */
  lemma OtherKeySpaceIgnored(item: MetadataItem, rest: seq<MetadataItem>)
    requires item.keySpace != Some(QuickTimeMetadataKeySpace)
    ensures ReadAssetIdentifier([item] + rest) == ReadAssetIdentifier(rest)
  {
    var items := [item] + rest;
    assert items[1..] == rest;
    forall i | FirstContentIdentifierAt(rest, i)
      ensures FirstContentIdentifierAt(items, i + 1)
    {
      assert items[i + 1] == rest[i];
    }
    if forall i | 0 <= i < |rest| :: !IsContentIdentifierItem(rest[i]) {
      assert forall i | 0 <= i < |items| :: !IsContentIdentifierItem(items[i]) by {
        forall i | 0 <= i < |items| ensures !IsContentIdentifierItem(items[i]) {
          if i > 0 { assert items[i] == rest[i - 1]; }
        }
      }
    } else {
      var k := FirstIndex(rest, IsContentIdentifierItem).value;
      assert FirstContentIdentifierAt(rest, k);
    }
  }

  /** Empty sample buffers are skipped by the scan. */
  lemma EmptySamplesSkipped(empty: MetadataSample, rest: seq<MetadataSample>)
    requires empty.numSamples == 0
    ensures ScanSamples([empty] + rest) == ScanSamples(rest)
  {
    var s := [empty] + rest;
    assert !Decides(empty);
    if forall i | 0 <= i < |rest| :: !Decides(rest[i]) {
      assert forall i | 0 <= i < |s| :: !Decides(s[i]) by {
        forall i | 0 <= i < |s| ensures !Decides(s[i]) {
          if i > 0 { assert s[i] == rest[i - 1]; }
        }
      }
    } else {
      var k := FirstIndex(rest, Decides).value;
      assert FirstDecidingAt(rest, k);
      assert s[k + 1] == rest[k];
      assert FirstDecidingAt(s, k + 1);
    }
  }

  /** The answer is the item's number payload, not where the sample sits in
      time: moving every group to another time range changes nothing. */
  lemma PayloadNotPlacement(samples: seq<MetadataSample>, moved: seq<MetadataSample>)
    requires |moved| == |samples|
    requires forall i | 0 <= i < |samples| ::
               moved[i].numSamples == samples[i].numSamples && GroupItems(moved[i]) == GroupItems(samples[i])
    ensures ScanSamples(moved) == ScanSamples(samples)
  {
    assert forall i | 0 <= i < |samples| :: Decides(moved[i]) == Decides(samples[i]);
    match FirstIndex(samples, Decides)
    case None =>
    case Some(k) =>
      assert FirstDecidingAt(samples, k);
      assert FirstDecidingAt(moved, k);
  }
}

=== FILE: watchface.dfy ===
/** The watch-face bundle: the `Resources` directory with `Images.plist`
    and one JPEG / MOV pair per live photo, the six top-level entries of the
    bundle, the JSON coding of `Face`, and the default field values. The
    encoders' bytes are not modelled: an encoded file is the value encoded. */
module Watchface {
  import opened Wrappers
  import QuickTimeMov

  const ImagesPlist: string := "Images.plist"

  // ---------------------------------------------------------------------
  // Face and its JSON coding

  datatype Customization = Customization(color: string, content: string, position: string)
  datatype ComplicationItem = ComplicationItem(app: string)
  datatype Complications = Complications(top: Option<ComplicationItem>)

  datatype Face = Face(
    version: int,
    customization: Customization,
    faceType: string,
    resourceDirectory: bool,
    complications: Option<Complications>)

  const DefaultCustomization: Customization := Customization("none", "custom", "top")
  const DefaultComplications: Complications := Complications(Some(ComplicationItem("date")))

  /** The memberwise initialiser with every default taken: version 4, a
      "photos" face with a resource directory, and no complications. */
  function DefaultFace(customization: Customization): Face {
    Face(4, customization, "photos", true, None)
  }

  /** The stored properties of `Face`, one per case of its `CodingKeys`. */
  datatype FaceField = VersionField | CustomizationField | ComplicationsField | FaceTypeField | ResourceDirectoryField

  /** `Face.CodingKeys`: two fields are renamed to keys with a space. */
  function CodingKey(f: FaceField): string {
    match f
    case VersionField => "version"
    case CustomizationField => "customization"
    case ComplicationsField => "complications"
    case FaceTypeField => "face type"
    case ResourceDirectoryField => "resource directory"
  }

  /** No two fields share a JSON key. */
  lemma CodingKeysDistinct(f: FaceField, g: FaceField)
    requires f != g
    ensures CodingKey(f) != CodingKey(g)
  {
  }

  /** The renamed keys, and the fields that keep their Swift names. */
  lemma CodingKeysRenaming()
    ensures CodingKey(FaceTypeField) == "face type" && CodingKey(ResourceDirectoryField) == "resource directory"
    ensures CodingKey(VersionField) == "version" && CodingKey(CustomizationField) == "customization"
    ensures CodingKey(ComplicationsField) == "complications"
  {
  }

  datatype Json = JString(s: string) | JNumber(n: int) | JBool(b: bool) | JObject(fields: map<string, Json>)

  function EncodeCustomization(c: Customization): Json {
    JObject(map["color" := JString(c.color), "content" := JString(c.content), "position" := JString(c.position)])
  }

  /** Synthesised `Encodable`: a `nil` optional is left out of the object. */
  function EncodeComplications(c: Complications): Json {
    match c.top
    case None => JObject(map[])
    case Some(item) => JObject(map["top" := JObject(map["app" := JString(item.app)])])
  }

  /** `JSONEncoder().encode(face)`, as the JSON value it writes. */
  function EncodeFace(f: Face): (j: Json)
    ensures j.JObject?
    ensures CodingKey(ComplicationsField) in j.fields <==> f.complications.Some?
    ensures forall k | k in j.fields :: k in {CodingKey(VersionField), CodingKey(CustomizationField),
                CodingKey(ComplicationsField), CodingKey(FaceTypeField), CodingKey(ResourceDirectoryField)}
  {
    var base := map[
      CodingKey(VersionField) := JNumber(f.version),
      CodingKey(CustomizationField) := EncodeCustomization(f.customization),
      CodingKey(FaceTypeField) := JString(f.faceType),
      CodingKey(ResourceDirectoryField) := JBool(f.resourceDirectory)];
    match f.complications
    case None => JObject(base)
    case Some(c) => JObject(base[CodingKey(ComplicationsField) := EncodeComplications(c)])
  }

  function DecodeString(j: Json): Option<string> {
    if j.JString? then Some(j.s) else None
  }

  function DecodeCustomization(j: Json): Option<Customization> {
    if j.JObject? && "color" in j.fields && "content" in j.fields && "position" in j.fields
       && j.fields["color"].JString? && j.fields["content"].JString? && j.fields["position"].JString?
    then Some(Customization(j.fields["color"].s, j.fields["content"].s, j.fields["position"].s))
    else None
  }

  function DecodeComplications(j: Json): Option<Complications> {
    if !j.JObject? then None
    else if "top" !in j.fields then Some(Complications(None))
    else
      var t := j.fields["top"];
      if t.JObject? && "app" in t.fields && t.fields["app"].JString?
      then Some(Complications(Some(ComplicationItem(t.fields["app"].s))))
      else None
  }

  /** Synthesised `Decodable` for `Face`, reading the same coding keys. */
  function DecodeFace(j: Json): Option<Face> {
    if !j.JObject? then None
    else
      var fs := j.fields;
      var kv, kc, kt, kr, kx := CodingKey(VersionField), CodingKey(CustomizationField),
                               CodingKey(FaceTypeField), CodingKey(ResourceDirectoryField), CodingKey(ComplicationsField);
      if kv in fs && fs[kv].JNumber? && kc in fs && kt in fs && fs[kt].JString? && kr in fs && fs[kr].JBool?
      then
        match DecodeCustomization(fs[kc])
        case None => None
        case Some(c) =>
          if kx !in fs then Some(Face(fs[kv].n, c, fs[kt].s, fs[kr].b, None))
          else match DecodeComplications(fs[kx])
            case None => None
            case Some(x) => Some(Face(fs[kv].n, c, fs[kt].s, fs[kr].b, Some(x)))
      else None
  }

  /** The coding keys lose nothing: decoding what was encoded gives the face back. */
  lemma FaceJsonRoundTrip(f: Face)
    ensures DecodeFace(EncodeFace(f)) == Some(f)
  {
    assert DecodeCustomization(EncodeCustomization(f.customization)) == Some(f.customization);
    if f.complications.Some? {
      var c := f.complications.value;
      assert DecodeComplications(EncodeComplications(c)) == Some(c);
    }
  }

  /** The default face is written with the renamed keys "face type" = "photos"
      and "resource directory" = true, and without a "complications" key. */
  lemma DefaultFaceJson(c: Customization)
    ensures var j := EncodeFace(DefaultFace(c));
            && j.fields["face type"] == JString("photos")
            && j.fields["resource directory"] == JBool(true)
            && j.fields["version"] == JNumber(4)
            && "complications" !in j.fields
            && "face_type" !in j.fields && "resource_directory" !in j.fields
  {
  }
  /** With the default customization and the default complications, the
      face JSON holds color "none", content "custom", position "top", and a
      top complication showing the "date" app. */
  lemma DefaultPartsJson()
    ensures var j := EncodeFace(DefaultFace(DefaultCustomization).(complications := Some(DefaultComplications)));
            && j.fields["customization"].JObject?
            && j.fields["customization"].fields == map["color" := JString("none"), "content" := JString("custom"),
                                                        "position" := JString("top")]
            && j.fields["complications"] == JObject(map["top" := JObject(map["app" := JString("date")])])
  {
  }


  // ---------------------------------------------------------------------
  // Metadata

  /** A complication template, as far as its archive depends on it; the
      archive bytes are not modelled. */
  datatype ComplicationTemplate = UtilitarianSmallFlat(finalized: bool, sensitivity: int, linkedOnOrAfterGrace: bool)

  datatype ComplicationSampleTemplate = ComplicationSampleTemplate(top: Option<string>, bottom: Option<string>)

  /** `ComplicationSampleTemplate.init(top:bottom:)`: each present template is
      archived (`archive` stands for the keyed archiver followed by base64);
      an absent one stays absent, so (nil, nil) gives (nil, nil). */
  function MakeComplicationSampleTemplate(top: Option<ComplicationTemplate>, bottom: Option<ComplicationTemplate>,
                                          archive: ComplicationTemplate -> string): (r: ComplicationSampleTemplate)
    ensures r.top.Some? <==> top.Some?
    ensures r.bottom.Some? <==> bottom.Some?
    ensures top.Some? ==> r.top.value == archive(top.value)
    ensures bottom.Some? ==> r.bottom.value == archive(bottom.value)
  {
    ComplicationSampleTemplate(top.Map(archive), bottom.Map(archive))
  }

  /** When the archive tells templates apart, so do the sample templates:
      the initialiser loses no information about its arguments. */
  lemma SampleTemplateInjective(top1: Option<ComplicationTemplate>, bottom1: Option<ComplicationTemplate>,
                                top2: Option<ComplicationTemplate>, bottom2: Option<ComplicationTemplate>,
                                archive: ComplicationTemplate -> string)
    requires forall x, y :: archive(x) == archive(y) ==> x == y
    ensures MakeComplicationSampleTemplate(top1, bottom1, archive) == MakeComplicationSampleTemplate(top2, bottom2, archive)
            <==> top1 == top2 && bottom1 == bottom2
  {
    var r1 := MakeComplicationSampleTemplate(top1, bottom1, archive);
    var r2 := MakeComplicationSampleTemplate(top2, bottom2, archive);
    if r1 == r2 {
      if top1.Some? { assert archive(top1.value) == archive(top2.value); }
      if bottom1.Some? { assert archive(bottom1.value) == archive(bottom2.value); }
    }
  }

  datatype ComplicationsNames = ComplicationsNames(top: string, bottom: string)

  /** `ComplicationsItemIDs` has no stored properties. */
  datatype ComplicationsItemIds = ComplicationsItemIds

  datatype WatchMetadata = WatchMetadata(
    version: int,
    deviceSize: int,
    complicationSampleTemplates: ComplicationSampleTemplate,
    complicationsNames: ComplicationsNames,
    complicationsItemIds: ComplicationsItemIds)

  /** The memberwise initialiser with `ComplicationsNames()` and
      `ComplicationsItemIDs()` passed, so the names take their own defaults. */
  function DefaultWatchMetadata(templates: ComplicationSampleTemplate): WatchMetadata {
    WatchMetadata(1, 2, templates, ComplicationsNames("Off", "Off"), ComplicationsItemIds)
  }

  /** One entry of `Images.plist`. The Double-valued analyses and original
      crop are not modelled; the two iris times are exact reals, and the
      modification date is a number of seconds. */
  datatype ImageItem = ImageItem(
    imageURL: string,
    irisDuration: real,
    irisStillDisplayTime: real,
    irisVideoURL: string,
    isIris: bool,
    localIdentifier: string,
    modificationDate: real,
    cropH: int, cropW: int, cropX: int, cropY: int)

  /** An image item with every default taken: a 3-second live photo whose
      still is shown at time 0, cropped to 384 x 480 at the origin. The
      default modification date is the current time, given as `now`. */
  function DefaultImageItem(imageURL: string, irisVideoURL: string, localIdentifier: string, now: real): ImageItem {
    ImageItem(imageURL, 3.0, 0.0, irisVideoURL, true, localIdentifier, now, 480, 384, 0, 0)
  }

  datatype ImagesMetadata = ImagesMetadata(imageList: seq<ImageItem>, version: int)

  /** The image list with its default version. */
  function DefaultImagesMetadata(imageList: seq<ImageItem>): ImagesMetadata {
    ImagesMetadata(imageList, 1)
  }

  /** The defaults of the face metadata: format version 1, device size 2,
      both complication names "Off", and the sample templates as given. */
  lemma DefaultWatchMetadataValues(templates: ComplicationSampleTemplate)
    ensures var m := DefaultWatchMetadata(templates);
            && m.version == 1 && m.deviceSize == 2
            && m.complicationsNames.top == "Off" && m.complicationsNames.bottom == "Off"
            && m.complicationSampleTemplates == templates
  {
  }

  /** The defaults of an image item: a live photo ("iris") lasting 3 s with
      its still at 0 s, a 384 x 480 crop (4 : 5, portrait) at the origin,
      and the given URLs, identifier and date; an image list has version 1. */
  lemma DefaultImageItemValues(imageURL: string, irisVideoURL: string, localIdentifier: string, now: real,
                               imageList: seq<ImageItem>)
    ensures var item := DefaultImageItem(imageURL, irisVideoURL, localIdentifier, now);
            && item.isIris && item.irisDuration == 3.0 && item.irisStillDisplayTime == 0.0
            && item.cropW == 384 && item.cropH == 480 && 5 * item.cropW == 4 * item.cropH
            && item.cropX == 0 && item.cropY == 0
            && item.imageURL == imageURL && item.irisVideoURL == irisVideoURL
            && item.localIdentifier == localIdentifier && item.modificationDate == now
    ensures DefaultImagesMetadata(imageList).version == 1 && DefaultImagesMetadata(imageList).imageList == imageList
  {
  }

  // ---------------------------------------------------------------------
  // Files and directories

  /** The source's `JPEG` still image; its codec is not modelled. */
  datatype JpegImage = JpegImage(path: string)

  /** What a file holds: the value its encoder or writer was given. */
  datatype FileContent =
    | PropertyList(images: ImagesMetadata)
    | JpegData(image: JpegImage, assetIdentifier: string)
    | MovData(movie: QuickTimeMov.Movie)
    | FaceJson(json: Json)
    | MetadataJson(metadata: WatchMetadata)
    | Png(bytes: seq<int>)

  datatype FileWrapper = File(contents: FileContent) | Directory(entries: map<string, FileWrapper>)

  /** The temporary directory, by file name. */
  type TmpDir = map<string, FileContent>

  datatype WatchfaceError = MissingTemporaryFile(name: string)

  datatype LivePhoto = LivePhoto(mov: QuickTimeMov.Movie, jpeg: JpegImage, assetIdentifier: string)

  datatype Resources = Resources(images: ImagesMetadata, livePhotos: seq<LivePhoto>)

  function JpegName(id: string): string { id + ".jpg" }
  function MovName(id: string): string { id + ".mov" }

  /** A live photo's two file names never collide with each other, with
      another identifier's names, or with `Images.plist`. */
  lemma NamesDistinct(a: string, b: string)
    ensures JpegName(a) != MovName(b)
    ensures JpegName(a) != ImagesPlist && MovName(a) != ImagesPlist
    ensures JpegName(a) == JpegName(b) ==> a == b
    ensures MovName(a) == MovName(b) ==> a == b
  {
    assert JpegName(a)[|JpegName(a)| - 1] == 'g';
    assert MovName(b)[|MovName(b)| - 1] == 'v';
    if JpegName(a) == JpegName(b) {
      assert a == JpegName(a)[..|a|] == JpegName(b)[..|b|] == b;
    }
    if MovName(a) == MovName(b) {
      assert a == MovName(a)[..|a|] == MovName(b)[..|b|] == b;
    }
  }

  /** A file in the temporary directory or the bundle is stamped when its
      name is the base name of the identifier it carries. */
  predicate Stamped(name: string, c: FileContent) {
    match c
    case JpegData(_, id) => name == JpegName(id)
    case MovData(m) =>
      var id := QuickTimeMov.ReadAssetIdentifier(m.metadata);
      id.Some? && name == MovName(id.value)
    case _ => false
  }

  predicate TmpStamped(tmp: TmpDir) {
    forall name | name in tmp :: Stamped(name, tmp[name])
  }

  /** Every entry but `Images.plist` is a stamped file. */
  predicate EntriesStamped(entries: map<string, FileWrapper>) {
    forall name | name in entries && name != ImagesPlist :: entries[name].File? && Stamped(name, entries[name].contents)
  }

  datatype BuildState = BuildState(entries: map<string, FileWrapper>, tmp: TmpDir)

  /** The writes of one fold step into the temporary directory. The JPEG
      writer replaces an existing file; the movie writer refuses a
      destination that already exists, and writing a MOV whose source has no
      video track leaves no file behind. */
  function WriteTmp(tmp: TmpDir, lp: LivePhoto, accepts: string -> nat -> bool): (t: TmpDir)
    ensures var jpg, mov := JpegName(lp.assetIdentifier), MovName(lp.assetIdentifier);
            && jpg in t && t[jpg] == JpegData(lp.jpeg, lp.assetIdentifier)
            && (mov in t <==> mov in tmp || lp.mov.videoTracks != [])
            && (mov in tmp ==> t[mov] == tmp[mov])
            && (mov !in tmp && lp.mov.videoTracks != [] ==>
                  t[mov] == MovData(QuickTimeMov.Write(lp.mov, lp.assetIdentifier, accepts(mov)).value))
            && tmp.Keys <= t.Keys <= tmp.Keys + {jpg, mov}
            && (forall k | k in tmp && k != jpg && k != mov :: t[k] == tmp[k])
  {
    var id := lp.assetIdentifier;
    var jpg, mov := JpegName(id), MovName(id);
    NamesDistinct(id, id);
    var tmp1 := tmp[jpg := JpegData(lp.jpeg, id)];
    if mov in tmp then tmp1
    else match QuickTimeMov.Write(lp.mov, id, accepts(mov))
      case None => tmp1
      case Some(m) => tmp1[mov := MovData(m)]
  }

  /** One step of the `reduce(into:)` in `Resources.fileWrapper`: write the
      JPEG and the MOV into the temporary directory under the live photo's
      identifier, then read both back into the bundle. When the movie writer
      wrote nothing, the MOV read back is whatever the temporary directory
      already held, and reading a missing file throws. `accepts(name)` is the
      writer's answer to each append. */
  function AddLivePhoto(st: BuildState, lp: LivePhoto, accepts: string -> nat -> bool): (r: Result<BuildState, WatchfaceError>)
    ensures r.Success? <==> (lp.mov.videoTracks != [] || MovName(lp.assetIdentifier) in st.tmp)
    ensures r.Success? ==> r.value.entries.Keys == st.entries.Keys + {JpegName(lp.assetIdentifier), MovName(lp.assetIdentifier)}
    ensures r.Success? ==> r.value.tmp.Keys == st.tmp.Keys + {JpegName(lp.assetIdentifier), MovName(lp.assetIdentifier)}
    ensures r.Success? ==> r.value.entries[JpegName(lp.assetIdentifier)] == File(JpegData(lp.jpeg, lp.assetIdentifier))
    ensures (lp.mov.videoTracks != [] && MovName(lp.assetIdentifier) !in st.tmp) ==>
              var written := MovData(QuickTimeMov.Write(lp.mov, lp.assetIdentifier, accepts(MovName(lp.assetIdentifier))).value);
              && r.Success?
              && r.value.entries[MovName(lp.assetIdentifier)] == File(written)
              && r.value.tmp[MovName(lp.assetIdentifier)] == written
    ensures MovName(lp.assetIdentifier) in st.tmp ==>
              && r.Success?
              && r.value.entries[MovName(lp.assetIdentifier)] == File(st.tmp[MovName(lp.assetIdentifier)])
              && r.value.tmp[MovName(lp.assetIdentifier)] == st.tmp[MovName(lp.assetIdentifier)]
    ensures r.Success? ==> forall k | k in st.entries && k != JpegName(lp.assetIdentifier) && k != MovName(lp.assetIdentifier) ::
              r.value.entries[k] == st.entries[k]
    ensures r.Success? ==> forall k | k in st.tmp && k != JpegName(lp.assetIdentifier) && k != MovName(lp.assetIdentifier) ::
              r.value.tmp[k] == st.tmp[k]
  {
    var id := lp.assetIdentifier;
    var jpg, mov := JpegName(id), MovName(id);
    var tmp := WriteTmp(st.tmp, lp, accepts);
    if mov !in tmp then Failure(MissingTemporaryFile(mov))
    else Success(BuildState(st.entries[jpg := File(tmp[jpg])][mov := File(tmp[mov])], tmp))
  }

  /** The identifiers of some live photos. */
  function Ids(lps: seq<LivePhoto>): set<string> {
    if lps == [] then {} else Ids(lps[..|lps| - 1]) + {lps[|lps| - 1].assetIdentifier}
  }

  /** The names a resources directory holds after the given live photos. */
  function EntryNames(lps: seq<LivePhoto>): (names: set<string>)
    ensures ImagesPlist in names
  {
    if lps == [] then {ImagesPlist}
    else
      var id := lps[|lps| - 1].assetIdentifier;
      EntryNames(lps[..|lps| - 1]) + {JpegName(id), MovName(id)}
  }

  /** `Resources.fileWrapper`'s fold over the live photos, processed in order,
      starting from a directory holding only `Images.plist`. */
  function BuildResources(images: ImagesMetadata, lps: seq<LivePhoto>, tmp: TmpDir,
                          accepts: string -> nat -> bool): (r: Result<BuildState, WatchfaceError>)
    ensures r.Success? ==> r.value.entries.Keys == EntryNames(lps)
    ensures r.Success? ==> ImagesPlist in r.value.entries && r.value.entries[ImagesPlist] == File(PropertyList(images))
    ensures r.Success? ==> r.value.tmp.Keys == tmp.Keys + (EntryNames(lps) - {ImagesPlist})
    ensures (forall i | 0 <= i < |lps| :: lps[i].mov.videoTracks != []) ==> r.Success?
  {
    if lps == [] then
      Success(BuildState(map[ImagesPlist := File(PropertyList(images))], tmp))
    else
      var init := lps[..|lps| - 1];
      var lp := lps[|lps| - 1];
      match BuildResources(images, init, tmp, accepts)
      case Failure(e) => Failure(e)
      case Success(st) =>
        NamesDistinct(lp.assetIdentifier, lp.assetIdentifier);
        AddLivePhoto(st, lp, accepts)
  }

  /** `Resources.fileWrapper`: the directory of the fold's entries, and the
      temporary directory it leaves behind. */
  function ResourcesFileWrapper(res: Resources, tmp: TmpDir, accepts: string -> nat -> bool): (r: Result<(FileWrapper, TmpDir), WatchfaceError>)
    ensures r.Success? ==> r.value.0.Directory? && ImagesPlist in r.value.0.entries
    ensures r.Success? <==> BuildResources(res.images, res.livePhotos, tmp, accepts).Success?
  {
    match BuildResources(res.images, res.livePhotos, tmp, accepts)
    case Failure(e) => Failure(e)
    case Success(st) => Success((Directory(st.entries), st.tmp))
  }

  datatype WatchfaceBundle = WatchfaceBundle(
    metadata: WatchMetadata,
    face: Face,
    snapshot: seq<int>,
    noBordersSnapshot: seq<int>,
    deviceBorderSnapshot: seq<int>,
    resources: Resources)

  const TopLevelNames: set<string> := {"face.json", "metadata.json", "snapshot.png",
    "no_borders_snapshot.png", "device_border_snapshot.png", "Resources"}

  /** `Watchface.fileWrapper`: exactly six entries, the last one the resources
      directory; a failure building the resources is the only failure. */
  function WatchfaceFileWrapper(w: WatchfaceBundle, tmp: TmpDir, accepts: string -> nat -> bool): (r: Result<FileWrapper, WatchfaceError>)
    ensures r.Success? <==> ResourcesFileWrapper(w.resources, tmp, accepts).Success?
    ensures r.Success? ==> r.value.Directory? && r.value.entries.Keys == TopLevelNames
    ensures r.Success? ==> r.value.entries["Resources"] == ResourcesFileWrapper(w.resources, tmp, accepts).value.0
    ensures r.Success? ==> r.value.entries["face.json"] == File(FaceJson(EncodeFace(w.face)))
  {
    match ResourcesFileWrapper(w.resources, tmp, accepts)
    case Failure(e) => Failure(e)
    case Success((resources, _)) =>
      Success(Directory(map[
        "face.json" := File(FaceJson(EncodeFace(w.face))),
        "metadata.json" := File(MetadataJson(w.metadata)),
        "snapshot.png" := File(Png(w.snapshot)),
        "no_borders_snapshot.png" := File(Png(w.noBordersSnapshot)),
        "device_border_snapshot.png" := File(Png(w.deviceBorderSnapshot)),
        "Resources" := resources]))
  }

  // ---------------------------------------------------------------------
  // Properties of the resources directory

  /** A live photo's names are in the directory exactly when its identifier
      was seen; `Images.plist` always is. */
  lemma {:induction false} EntryNamesMembership(lps: seq<LivePhoto>, id: string)
    ensures ImagesPlist in EntryNames(lps)
    ensures JpegName(id) in EntryNames(lps) <==> id in Ids(lps)
    ensures MovName(id) in EntryNames(lps) <==> id in Ids(lps)
  {
    NamesDistinct(id, id);
    if lps != [] {
      var init := lps[..|lps| - 1];
      var last := lps[|lps| - 1].assetIdentifier;
      EntryNamesMembership(init, id);
      NamesDistinct(id, last);
      NamesDistinct(last, id);
      assert Ids(lps) == Ids(init) + {last};
      assert EntryNames(lps) == EntryNames(init) + {JpegName(last), MovName(last)};
    }
  }

  /** n distinct identifiers give 1 + 2n distinct names. */
  lemma {:induction false} EntryNamesCount(lps: seq<LivePhoto>)
    ensures |EntryNames(lps)| == 1 + 2 * |Ids(lps)|
  {
    if lps != [] {
      var init := lps[..|lps| - 1];
      var id := lps[|lps| - 1].assetIdentifier;
      EntryNamesCount(init);
      EntryNamesMembership(init, id);
      NamesDistinct(id, id);
      var names := EntryNames(init);
      assert EntryNames(lps) == names + {JpegName(id), MovName(id)};
      assert Ids(lps) == Ids(init) + {id};
      if id in Ids(init) {
        assert EntryNames(lps) == names;
        assert Ids(lps) == Ids(init);
      } else {
        AddTwoNew(names, JpegName(id), MovName(id));
        assert |Ids(init) + {id}| == |Ids(init)| + 1;
      }
    }
  }

  lemma AddTwoNew(names: set<string>, a: string, b: string)
    requires a !in names && b !in names && a != b
    ensures |names + {a, b}| == |names| + 2
  {
    assert names + {a, b} == (names + {a}) + {b};
  }

  /** An identifier was seen exactly when some live photo carries it. */
  lemma {:induction false} IdsMembership(lps: seq<LivePhoto>, id: string)
    ensures id in Ids(lps) <==> exists i :: 0 <= i < |lps| && lps[i].assetIdentifier == id
  {
    if lps != [] {
      var init := lps[..|lps| - 1];
      IdsMembership(init, id);
      if id in Ids(init) {
        var i :| 0 <= i < |init| && init[i].assetIdentifier == id;
        assert lps[i] == init[i];
      }
      if exists i :: 0 <= i < |lps| && lps[i].assetIdentifier == id {
        var i :| 0 <= i < |lps| && lps[i].assetIdentifier == id;
        if i < |init| { assert init[i] == lps[i]; }
      }
    }
  }

  /** The directory holds `Images.plist` plus two files per distinct
      identifier: a repeated identifier adds nothing. */
  lemma ResourcesEntryCount(images: ImagesMetadata, lps: seq<LivePhoto>, tmp: TmpDir, accepts: string -> nat -> bool)
    ensures var r := BuildResources(images, lps, tmp, accepts);
            r.Success? ==> |r.value.entries| == 1 + 2 * |Ids(lps)|
  {
    var r := BuildResources(images, lps, tmp, accepts);
    if r.Success? {
      EntryNamesCount(lps);
      assert |r.value.entries| == |r.value.entries.Keys|;
    }
  }

  /** Every live photo has its "<id>.jpg" and "<id>.mov", and no entry other
      than the property list has any other name. */
  lemma ResourcesEntryNames(images: ImagesMetadata, lps: seq<LivePhoto>, tmp: TmpDir, accepts: string -> nat -> bool)
    ensures var r := BuildResources(images, lps, tmp, accepts);
            r.Success? ==>
              && (forall i | 0 <= i < |lps| ::
                    JpegName(lps[i].assetIdentifier) in r.value.entries && MovName(lps[i].assetIdentifier) in r.value.entries)
              && forall name | name in r.value.entries && name != ImagesPlist ::
                   exists i :: 0 <= i < |lps| && (name == JpegName(lps[i].assetIdentifier) || name == MovName(lps[i].assetIdentifier))
  {
    forall i | 0 <= i < |lps|
      ensures lps[i].assetIdentifier in Ids(lps)
      ensures JpegName(lps[i].assetIdentifier) in EntryNames(lps) && MovName(lps[i].assetIdentifier) in EntryNames(lps)
    {
      IdsMembership(lps, lps[i].assetIdentifier);
      EntryNamesMembership(lps, lps[i].assetIdentifier);
    }
    forall name | name in EntryNames(lps) && name != ImagesPlist
      ensures exists i :: 0 <= i < |lps| && (name == JpegName(lps[i].assetIdentifier) || name == MovName(lps[i].assetIdentifier))
    {
      EntryNamesOrigin(lps, name);
    }
  }

  lemma {:induction false} EntryNamesOrigin(lps: seq<LivePhoto>, name: string)
    requires name in EntryNames(lps) && name != ImagesPlist
    ensures exists i :: 0 <= i < |lps| && (name == JpegName(lps[i].assetIdentifier) || name == MovName(lps[i].assetIdentifier))
  {
    var init := lps[..|lps| - 1];
    var last := |lps| - 1;
    if name !in {JpegName(lps[last].assetIdentifier), MovName(lps[last].assetIdentifier)} {
      EntryNamesOrigin(init, name);
      var i :| 0 <= i < |init| && (name == JpegName(init[i].assetIdentifier) || name == MovName(init[i].assetIdentifier));
      assert lps[i] == init[i];
    }
  }

  /** `i` is the last live photo with its identifier. */
  predicate LastWithId(lps: seq<LivePhoto>, i: int) {
    && 0 <= i < |lps|
    && forall j | i < j < |lps| :: lps[j].assetIdentifier != lps[i].assetIdentifier
  }

  /** The entries hold a live photo's JPEG as that live photo writes it. */
  predicate HoldsJpeg(entries: map<string, FileWrapper>, lp: LivePhoto) {
    JpegName(lp.assetIdentifier) in entries
    && entries[JpegName(lp.assetIdentifier)] == File(JpegData(lp.jpeg, lp.assetIdentifier))
  }

  /** The state holds, in the bundle and in the temporary directory, the
      movie `c` under `name`. */
  predicate HoldsMovie(st: BuildState, name: string, c: FileContent) {
    && name in st.entries && st.entries[name] == File(c)
    && name in st.tmp && st.tmp[name] == c
  }

  /** The movie a live photo writes. */
  function WrittenMovie(lp: LivePhoto, accepts: string -> nat -> bool): FileContent
    requires lp.mov.videoTracks != []
  {
    MovData(QuickTimeMov.Write(lp.mov, lp.assetIdentifier, accepts(MovName(lp.assetIdentifier))).value)
  }

  /** A fold step holds the JPEG of the live photo it adds, and its written
      movie when no movie of that name was there before. */
  lemma AddLivePhotoHolds(st: BuildState, lp: LivePhoto, accepts: string -> nat -> bool)
    requires AddLivePhoto(st, lp, accepts).Success?
    ensures HoldsJpeg(AddLivePhoto(st, lp, accepts).value.entries, lp)
    ensures MovName(lp.assetIdentifier) !in st.tmp ==>
              && lp.mov.videoTracks != []
              && HoldsMovie(AddLivePhoto(st, lp, accepts).value, MovName(lp.assetIdentifier), WrittenMovie(lp, accepts))
  {
  }

  /** A fold step keeps the JPEG of every live photo with another identifier. */
  lemma AddLivePhotoKeepsJpeg(st: BuildState, lp: LivePhoto, other: LivePhoto, accepts: string -> nat -> bool)
    requires AddLivePhoto(st, lp, accepts).Success?
    requires HoldsJpeg(st.entries, other)
    requires other.assetIdentifier != lp.assetIdentifier
    ensures HoldsJpeg(AddLivePhoto(st, lp, accepts).value.entries, other)
  {
    NamesDistinct(other.assetIdentifier, lp.assetIdentifier);
    NamesDistinct(lp.assetIdentifier, other.assetIdentifier);
  }

  /** A fold step keeps every movie already held, even under its own name:
      the movie writer does not replace an existing file. */
  lemma AddLivePhotoKeepsMovie(st: BuildState, lp: LivePhoto, id: string, c: FileContent, accepts: string -> nat -> bool)
    requires AddLivePhoto(st, lp, accepts).Success?
    requires HoldsMovie(st, MovName(id), c)
    ensures HoldsMovie(AddLivePhoto(st, lp, accepts).value, MovName(id), c)
  {
    NamesDistinct(lp.assetIdentifier, id);
    NamesDistinct(lp.assetIdentifier, lp.assetIdentifier);
    if id != lp.assetIdentifier {
      NamesDistinct(id, lp.assetIdentifier);
    }
  }

  /** `i` is the first live photo with its identifier. */
  predicate FirstWithId(lps: seq<LivePhoto>, i: int) {
    && 0 <= i < |lps|
    && forall j | 0 <= j < i :: lps[j].assetIdentifier != lps[i].assetIdentifier
  }

  /** A later live photo with the same identifier replaces the earlier JPEG:
      the JPEG under an identifier comes from its last live photo. */
  lemma {:induction false} LastLivePhotoWins(images: ImagesMetadata, lps: seq<LivePhoto>, tmp: TmpDir,
                                             accepts: string -> nat -> bool, i: int)
    requires LastWithId(lps, i)
    ensures var r := BuildResources(images, lps, tmp, accepts);
            r.Success? ==> HoldsJpeg(r.value.entries, lps[i])
  {
    BuildStep(images, lps, tmp, accepts);
    var p := BuildResources(images, lps[..|lps| - 1], tmp, accepts);
    var last := lps[|lps| - 1];
    if p.Success? && AddLivePhoto(p.value, last, accepts).Success? {
      if i < |lps| - 1 {
        var init := lps[..|lps| - 1];
        assert init[i] == lps[i];
        assert LastWithId(init, i);
        LastLivePhotoWins(images, init, tmp, accepts, i);
        AddLivePhotoKeepsJpeg(p.value, last, lps[i], accepts);
      } else {
        AddLivePhotoHolds(p.value, last, accepts);
      }
    }
  }


  /** ... but the movie under an identifier stays the one its first live
      photo wrote (when the temporary directory held no such movie before):
      a later live photo with that identifier cannot overwrite it. */
  lemma {:induction false} FirstMovieStays(images: ImagesMetadata, lps: seq<LivePhoto>, tmp: TmpDir,
                                           accepts: string -> nat -> bool, i: int)
    requires FirstWithId(lps, i)
    requires MovName(lps[i].assetIdentifier) !in tmp
    ensures var r := BuildResources(images, lps, tmp, accepts);
            r.Success? ==>
              && lps[i].mov.videoTracks != []
              && HoldsMovie(r.value, MovName(lps[i].assetIdentifier), WrittenMovie(lps[i], accepts))
  {
    if i == |lps| - 1 {
      FirstMovieWritten(images, lps, tmp, accepts);
    } else if BuildResources(images, lps, tmp, accepts).Success? {
      var init := lps[..|lps| - 1];
      BuildStep(images, lps, tmp, accepts);
      assert init[i] == lps[i];
      assert FirstWithId(init, i);
      FirstMovieStays(images, init, tmp, accepts, i);
      var st := BuildResources(images, init, tmp, accepts).value;
      AddLivePhotoKeepsMovie(st, lps[|lps| - 1], lps[i].assetIdentifier, WrittenMovie(lps[i], accepts), accepts);
    }
  }

  /** The live photo that first uses an identifier writes its movie. */
  lemma FirstMovieWritten(images: ImagesMetadata, lps: seq<LivePhoto>, tmp: TmpDir, accepts: string -> nat -> bool)
    requires FirstWithId(lps, |lps| - 1)
    requires MovName(lps[|lps| - 1].assetIdentifier) !in tmp
    ensures var r := BuildResources(images, lps, tmp, accepts);
            var lp := lps[|lps| - 1];
            r.Success? ==>
              && lp.mov.videoTracks != []
              && HoldsMovie(r.value, MovName(lp.assetIdentifier), WrittenMovie(lp, accepts))
  {
    var init := lps[..|lps| - 1];
    var lp := lps[|lps| - 1];
    BuildStep(images, lps, tmp, accepts);
    forall j | 0 <= j < |init| ensures init[j].assetIdentifier != lp.assetIdentifier {
      assert init[j] == lps[j];
    }
    UnusedMovName(images, init, tmp, accepts, lp.assetIdentifier);
    var p := BuildResources(images, init, tmp, accepts);
    if p.Success? && AddLivePhoto(p.value, lp, accepts).Success? {
      AddLivePhotoHolds(p.value, lp, accepts);
    }
  }

  /** The fold's last step. */
  lemma BuildStep(images: ImagesMetadata, lps: seq<LivePhoto>, tmp: TmpDir, accepts: string -> nat -> bool)
    requires lps != []
    ensures var r := BuildResources(images, lps, tmp, accepts);
            var p := BuildResources(images, lps[..|lps| - 1], tmp, accepts);
            && (p.Failure? ==> r.Failure?)
            && (p.Success? ==> r == AddLivePhoto(p.value, lps[|lps| - 1], accepts))
  {
  }

  /** The fold writes no movie under an identifier it has not seen. */
  lemma UnusedMovName(images: ImagesMetadata, lps: seq<LivePhoto>, tmp: TmpDir, accepts: string -> nat -> bool, id: string)
    requires forall j | 0 <= j < |lps| :: lps[j].assetIdentifier != id
    requires MovName(id) !in tmp
    ensures var r := BuildResources(images, lps, tmp, accepts);
            r.Success? ==> MovName(id) !in r.value.tmp
  {
    IdsMembership(lps, id);
    EntryNamesMembership(lps, id);
  }

  /** Pairing: when the temporary directory holds only stamped files (an
      empty one does), every JPEG and MOV in the bundle carries the identifier
      that is its base name, so a live photo's two files always agree. */
  lemma {:induction false} ResourcesStamped(images: ImagesMetadata, lps: seq<LivePhoto>, tmp: TmpDir,
                                            accepts: string -> nat -> bool)
    requires TmpStamped(tmp)
    ensures var r := BuildResources(images, lps, tmp, accepts);
            r.Success? ==> TmpStamped(r.value.tmp) && EntriesStamped(r.value.entries)
  {
    if lps != [] && BuildResources(images, lps, tmp, accepts).Success? {
      var init := lps[..|lps| - 1];
      ResourcesStamped(images, init, tmp, accepts);
      var st := BuildResources(images, init, tmp, accepts).value;
      assert BuildResources(images, lps, tmp, accepts) == AddLivePhoto(st, lps[|lps| - 1], accepts);
      AddLivePhotoKeepsStamped(st, lps[|lps| - 1], accepts);
    }
  }

  /** One step of the fold keeps every file stamped: both files are written
      and read back under the live photo's own identifier. */
  lemma AddLivePhotoKeepsStamped(st: BuildState, lp: LivePhoto, accepts: string -> nat -> bool)
    requires TmpStamped(st.tmp) && EntriesStamped(st.entries)
    requires AddLivePhoto(st, lp, accepts).Success?
    ensures TmpStamped(AddLivePhoto(st, lp, accepts).value.tmp)
    ensures EntriesStamped(AddLivePhoto(st, lp, accepts).value.entries)
  {
    var id := lp.assetIdentifier;
    var jpg, mov := JpegName(id), MovName(id);
    NamesDistinct(id, id);
    WriteTmpKeepsStamped(st.tmp, lp, accepts);
    var r := AddLivePhoto(st, lp, accepts).value;
    assert r.tmp == WriteTmp(st.tmp, lp, accepts);
    assert r.entries == st.entries[jpg := File(r.tmp[jpg])][mov := File(r.tmp[mov])];
    forall name | name in r.entries && name != ImagesPlist
      ensures r.entries[name].File? && Stamped(name, r.entries[name].contents)
    {
      if name == jpg || name == mov {
        assert r.entries[name] == File(r.tmp[name]);
      } else {
        assert r.entries[name] == st.entries[name];
      }
    }
  }

  /** The writes of a fold step keep the temporary directory stamped. */
  lemma WriteTmpKeepsStamped(tmp: TmpDir, lp: LivePhoto, accepts: string -> nat -> bool)
    requires TmpStamped(tmp)
    ensures TmpStamped(WriteTmp(tmp, lp, accepts))
  {
    var id := lp.assetIdentifier;
    var jpg, mov := JpegName(id), MovName(id);
    NamesDistinct(id, id);
    var t := WriteTmp(tmp, lp, accepts);
    if mov !in tmp && lp.mov.videoTracks != [] {
      QuickTimeMov.WriteReadAssetIdentifier(lp.mov, id, accepts(mov));
    }
    forall name | name in t ensures Stamped(name, t[name]) {
      if name != jpg && name != mov {
        assert name in tmp;
      }
    }
  }

  /** The entries hold "<id>.jpg", a JPEG stamped with `id`, and "<id>.mov",
      a movie whose asset identifier reads back as `id`. */
  predicate Paired(entries: map<string, FileWrapper>, id: string) {
    && JpegName(id) in entries && MovName(id) in entries
    && entries[JpegName(id)].File? && entries[JpegName(id)].contents.JpegData?
    && entries[JpegName(id)].contents.assetIdentifier == id
    && entries[MovName(id)].File? && entries[MovName(id)].contents.MovData?
    && QuickTimeMov.ReadAssetIdentifier(entries[MovName(id)].contents.movie.metadata) == Some(id)
  }

  /** Both files of every live photo carry its identifier. */
  lemma PairedIdentifiers(images: ImagesMetadata, lps: seq<LivePhoto>, tmp: TmpDir,
                          accepts: string -> nat -> bool, i: int)
    requires TmpStamped(tmp)
    requires BuildResources(images, lps, tmp, accepts).Success?
    requires 0 <= i < |lps|
    ensures Paired(BuildResources(images, lps, tmp, accepts).value.entries, lps[i].assetIdentifier)
  {
    var entries := BuildResources(images, lps, tmp, accepts).value.entries;
    var id := lps[i].assetIdentifier;
    ResourcesStamped(images, lps, tmp, accepts);
    ResourcesEntryNames(images, lps, tmp, accepts);
    NamesDistinct(id, id);
    var jc := entries[JpegName(id)].contents;
    var mc := entries[MovName(id)].contents;
    assert Stamped(JpegName(id), jc) && Stamped(MovName(id), mc);
    if jc.JpegData? { NamesDistinct(jc.assetIdentifier, id); }
    else if jc.MovData? { NamesDistinct(id, QuickTimeMov.ReadAssetIdentifier(jc.movie.metadata).value); }
    if mc.MovData? { NamesDistinct(QuickTimeMov.ReadAssetIdentifier(mc.movie.metadata).value, id); }
    else if mc.JpegData? { NamesDistinct(mc.assetIdentifier, id); }
  }

  lemma {:induction false} FailurePersists(images: ImagesMetadata, lps: seq<LivePhoto>, tmp: TmpDir,
                                           accepts: string -> nat -> bool, k: nat)
    requires k <= |lps|
    requires BuildResources(images, lps[..k], tmp, accepts).Failure?
    ensures BuildResources(images, lps, tmp, accepts).Failure?
    decreases |lps| - k
  {
    if k < |lps| {
      var p := lps[..k + 1];
      assert p[..|p| - 1] == lps[..k];
      assert BuildResources(images, p, tmp, accepts).Failure?;
      FailurePersists(images, lps, tmp, accepts, k + 1);
    } else {
      assert lps[..k] == lps;
    }
  }

  /** With a fresh temporary directory, a live photo whose movie has no video
      track, and whose identifier no earlier live photo used, makes the whole
      bundle fail: `write` leaves no MOV and reading it throws. */
  lemma MissingVideoTrackFails(images: ImagesMetadata, lps: seq<LivePhoto>, accepts: string -> nat -> bool, i: int)
    requires 0 <= i < |lps|
    requires lps[i].mov.videoTracks == []
    requires forall j | 0 <= j < i :: lps[j].assetIdentifier != lps[i].assetIdentifier
    ensures BuildResources(images, lps, map[], accepts).Failure?
  {
    FirstMovieStays(images, lps, map[], accepts, i);
  }

  /** The bundle's `Resources` entry is the resources directory: exactly
      `Images.plist` plus a JPEG and a MOV per distinct identifier, and, from
      a temporary directory holding only stamped files, every live photo's
      two files carry its identifier. */
  lemma BundleResources(w: WatchfaceBundle, tmp: TmpDir, accepts: string -> nat -> bool)
    requires TmpStamped(tmp)
    ensures var r := WatchfaceFileWrapper(w, tmp, accepts);
            var lps := w.resources.livePhotos;
            r.Success? ==>
              && "Resources" in r.value.entries && r.value.entries["Resources"].Directory?
              && var res := r.value.entries["Resources"].entries;
              && res.Keys == EntryNames(lps)
              && |res| == 1 + 2 * |Ids(lps)|
              && res[ImagesPlist] == File(PropertyList(w.resources.images))
              && forall i | 0 <= i < |lps| :: Paired(res, lps[i].assetIdentifier)
  {
    var lps := w.resources.livePhotos;
    var b := BuildResources(w.resources.images, lps, tmp, accepts);
    if b.Success? {
      ResourcesEntryCount(w.resources.images, lps, tmp, accepts);
      forall i | 0 <= i < |lps| ensures Paired(b.value.entries, lps[i].assetIdentifier) {
        PairedIdentifiers(w.resources.images, lps, tmp, accepts, i);
      }
    }
  }
}

=== FILE: wrappers.dfy ===
/** Optional values, standing in for Swift optionals, and a success/failure
    result for the few places where the source throws. */
module Wrappers {

  datatype Option<+T> = None | Some(value: T) {

    /** Swift's `Optional.map`. */
    function Map<U>(f: T -> U): (r: Option<U>)
      ensures r.Some? <==> Some?
      ensures Some? ==> r.value == f(value)
    {
      match this
      case None => None
      case Some(v) => Some(f(v))
    }

    /** Swift's `??`. */
    function GetOr(default: T): T {
      match this
      case None => default
      case Some(v) => v
    }
  }

  datatype Result<+R, +E> = Success(value: R) | Failure(error: E)
}
